=== FILE: README.md ===
# Mocha test-runner adapter — a Dafny model

This project models the core of an adapter that lets an IDE test-runner UI run
Mocha as a child process and relay its results test by test. There are two
cooperating halves:

- **The runner** (`lib/nuclide-test-runner-mocha.js`). It does five things:
  - It locates the project root by walking up from the test file until it
    finds a sentinel file (`cwd`).
  - It reads the Mocha options file found there and sanitises it (`config`).
    Flags that would change the reporter or name another options file, start
    watch mode or recurse are removed, together with their values.
  - It builds the child's argument vector and environment (`exec`).
  - It decodes the child's standard output (`report`). The output is
    newline-delimited JSON, mixed with plain noise, and may be split across
    chunks.
  - It turns the child's standard error into one message per line. The last
    partial line is flushed on exit or on a spawn error.
- **The reporter** (`lib/reporter.js`). This runs inside Mocha. It writes one
  summary of all tests before any test runs, then a `start` message, then one
  `run-test` message per finished test.

The model is made of modules:

| file | module | models |
|---|---|---|
| `wrappers.dfy` | `Wrappers` | `Option` and `Result` |
| `strings.dfy` | `Strings` | JavaScript's `split` and `join` on a character class; JavaScript's `\s` class |
| `options.dfy` | `OptionsFile` | the `BAD_OPTS` and `OK_OPTS` tables; the tokeniser and the fold of `config` |
| `protocol.dfy` | `Protocol` | `STATUS` and the message records on the wire |
| `reporter.dfy` | `Reporter` | `testStatus`, `testInfo`, `testSummary`, `summaries`, and the order in which the reporter emits |
| `decoder.dfy` | `Decoder` | `report`, the line decoder with its carry |
| `exec.dfy` | `Exec` | the argument vector, the environment, the standard-error line buffer, and the child's event handlers |
| `root.dfy` | `ProjectRoot` | `cwd`, the walk up to the sentinel |
| `runner.dfy` | `Runner` | `run`, the chain `cwd → config → exec → catch(error) → done` |
| `wire.dfy` | `Wire` | the reporter's output fed through the decoder |

Things outside the program become parameters:

- `JSON.parse` is a function `parse: string -> Parsed`. It returns one of:
  - a failure;
  - `null`;
  - an object with a truthy `kind`, given as the message it denotes;
  - any other value.
- `JSON.stringify` is a function `Message -> string`.
- The file system is a set of existing paths, plus a read function that
  returns `None` when a file cannot be read.
- The child process is the sequence of events it fires.
- The runner's own environment (`process.env`) is a map from names to values.

Paths are sequences of segments. The root is `[]`, and `path.dirname` drops
the last segment.

Some behaviours of the code are easy to misread; the model follows the code:

- **A lone trailing flag from `OK_OPTS` is kept.** An example is
  `--timeout` as the last token. Its window runs past the end of the list, and
  `slice` clamps it (`OptionsFile.ExampleLoneTrailingFlag`).
- **A JSON fragment shorter than `{"kind":` is not carried across a chunk
  boundary.** It is reported as standard error. So the chunks `…\n{"ki` and
  `nd":"start"}\n` give one stderr message per fragment and then the empty one
  from the final newline, not a `start` message
  (`Decoder.ShortFragmentIsNotCarried`).
- **A chunk ending in a newline yields a final empty stderr message.** This
  happens when nothing is carried.
- **When carried text plus a line parses to a value that is not a message,
  the carried text is lost.** Carried text always starts with `{"kind":`, so
  such a value is an object whose `kind` is falsy. For example, `{"kind":`
  carried and then the line `null}` parse to `{"kind":null}`. Only the line
  itself, `null}`, is reported as stderr, because the carry is cleared before
  the `kind` check.
- **A line that starts with `{"kind":` but can never parse swallows the rest
  of standard output.** Every later piece is appended to the carry and nothing
  more is reported from standard output. On close only the standard-error
  buffer is flushed; the carried text is dropped
  (`Decoder.PoisonedCarryAbsorbs`, `Exec.PoisonedOutputIsLost`).

## Model

| member | source | states |
|---|---|---|
| Strings.Split | lib/nuclide-test-runner-mocha.js:134 | splitting on a character class yields one more piece than there are separator characters |
| Strings.SplitPiecesHaveNoSeparator | lib/nuclide-test-runner-mocha.js:134 | no piece of a split contains a separator character |
| Strings.SplitDropsOnlySeparators | lib/nuclide-test-runner-mocha.js:134 | the pieces of a split, concatenated, are the input with exactly the separator characters removed |
| Strings.SplitAppend | lib/nuclide-test-runner-mocha.js:107 | splitting `a + b` glues the last piece of `a`'s split to the first piece of `b`'s split |
| Strings.SplitAtSeparator | lib/nuclide-test-runner-mocha.js:134 | a separator character splits the text around it: the pieces of the left text come first, then the pieces of the right text |
| Strings.SplitOfJoin | lib/nuclide-test-runner-mocha.js:78 | joining separator-free pieces with a separator and splitting again gives the pieces back |
| Strings.JoinOfSplit | lib/nuclide-test-runner-mocha.js:107 | splitting on newlines and joining with `'\n'` rebuilds the text |
| Strings.JoinAsTerminated | lib/nuclide-test-runner-mocha.js:107-108 | the joined text is every complete line followed by its terminator, and then the last piece |
| OptionsFile.Tokens | lib/nuclide-test-runner-mocha.js:133-136 | every token is non-empty, and there are no more tokens than separator characters plus one |
| OptionsFile.TokensOfJoinedWords | lib/nuclide-test-runner-mocha.js:133-136 | words without backslash, `%` or whitespace, joined by spaces, tokenise back to exactly those words |
| OptionsFile.EscapedWhitespaceStaysInToken | lib/nuclide-test-runner-mocha.js:133-136 | a backslash before any whitespace character keeps the two words in one token, with a space between them |
| OptionsFile.EscapeAppend | lib/nuclide-test-runner-mocha.js:133 | escaping never pairs characters across a boundary that does not follow a backslash |
| OptionsFile.EscapeAtWhitespace | lib/nuclide-test-runner-mocha.js:133 | a whitespace character not preceded by a backslash stays as it is, and the text on each side of it is escaped separately |
| OptionsFile.EscapeDoesNotCrossWhitespace | lib/nuclide-test-runner-mocha.js:133-136 | whitespace not preceded by a backslash separates tokens: the tokens of the whole file are those before it followed by those after it |
| OptionsFile.Sanitise | lib/nuclide-test-runner-mocha.js:137-145 | the fold and slice give the kept tokens cut at the end of the last flag's window; no disallowed flag survives |
| OptionsFile.FoldKeeps | lib/nuclide-test-runner-mocha.js:137-144 | the fold keeps what a front-to-back reading keeps once each disallowed flag and its values are dropped |
| OptionsFile.FoldTracksLastFlag | lib/nuclide-test-runner-mocha.js:142 | after the fold, `last` marks the end of the window of the last kept flag |
| OptionsFile.FoldAppend | lib/nuclide-test-runner-mocha.js:137-144 | folding two token lists in turn equals folding their concatenation |
| OptionsFile.KeepHasNoBadFlag | lib/nuclide-test-runner-mocha.js:10-20 | no key of the disallowed table is kept |
| OptionsFile.SkipSwallows | lib/nuclide-test-runner-mocha.js:138-139 | while the skip count lasts, tokens are dropped one each and nothing else changes |
| OptionsFile.BadFlagDropsItsValues | lib/nuclide-test-runner-mocha.js:138-139 | a disallowed flag and its values leave the memo as it was |
| OptionsFile.LastNeverDecreases | lib/nuclide-test-runner-mocha.js:142 | the marker never decreases, and it never passes the kept list's length plus one |
| OptionsFile.Config | lib/nuclide-test-runner-mocha.js:128-147 | the directory is passed through; an unreadable file gives no options; a readable file gives its tokens with each disallowed flag and its values removed, cut at the end of the last flag's window; no disallowed flag is returned |
| OptionsFile.ExampleTimeoutThenWatch | lib/nuclide-test-runner-mocha.js:132-145 | `--timeout 5000 --watch` gives `--timeout 5000` |
| OptionsFile.ExampleWatchDropped | lib/nuclide-test-runner-mocha.js:137-145 | `--watch` after a complete flag window is dropped |
| OptionsFile.ExampleTrailingPositional | lib/nuclide-test-runner-mocha.js:142-145 | a positional after the last flag's window is cut off |
| OptionsFile.ExampleLoneTrailingFlag | lib/nuclide-test-runner-mocha.js:145 | a lone trailing allowed flag is kept, because `slice` clamps |
| Protocol.CodesAreDistinct | lib/reporter.js:6-12 | the five status codes are distinct and range over 1 to 5 |
| Reporter.TestStatus | lib/reporter.js:69-78 | passed maps to PASSED; failed maps to TIMEOUT when timed out and to FAILED otherwise; any other state maps to SKIPPED; FATAL is never produced |
| Reporter.TestInfoOf | lib/reporter.js:54-67 | exactly one failure iff the test failed (timeouts included); exactly one skip iff it neither passed nor failed; one assertion and one method; the details are the error's text, or empty when there is none; a missing duration reads as 0 |
| Reporter.TestSummaryOf | lib/reporter.js:45-52 | class name, id and name are all the full title; the file name is the test's file |
| Reporter.Summaries | lib/reporter.js:39-43 | one summary per test, in suite order |
| Reporter.SummaryMatchesResult | lib/reporter.js:45-65 | a test's summary id equals the id of its later result |
| Reporter.Handlers | lib/reporter.js:18-20 | one message per runner event, in event order: `start` for the run start, `run-test` for each finished test |
| Reporter.Emissions | lib/reporter.js:15-21 | the summary comes first and only once; every later message is `start` or `run-test` |
| Decoder.Step | lib/nuclide-test-runner-mocha.js:79-90 | each line emits at most one message, and emits nothing exactly when text is left carried; only text starting with `{"kind":` is ever carried; a parsed message is emitted and clears the carry; a failure after a carry extends the carry; with nothing carried, a failure starts a carry iff the line starts with `{"kind":` and is stderr otherwise; `null` is handled the same way; any other value reports only the line |
| Decoder.FeedLines | lib/nuclide-test-runner-mocha.js:78-91 | no more messages than lines; the carry stays valid |
| Decoder.Report | lib/nuclide-test-runner-mocha.js:77-92 | no more messages than newlines plus one; the carry stays valid |
| Decoder.ReportAll | lib/nuclide-test-runner-mocha.js:77-92 | over any sequence of chunks, the carry stays valid |
| Decoder.InterleavedLines | lib/nuclide-test-runner-mocha.js:78-91 | self-contained lines decode one for one: messages for JSON lines, stderr for noise, in order |
| Decoder.InterleavedChunk | lib/nuclide-test-runner-mocha.js:77-92 | a chunk of self-contained lines decodes to their classification, with nothing carried |
| Decoder.TrailingNewline | lib/nuclide-test-runner-mocha.js:78 | a message line ending in a newline gives the message and then an empty stderr message |
| Decoder.CarriedPieceJoins | lib/nuclide-test-runner-mocha.js:80-86 | a carried piece followed by the next piece decodes as their concatenation would, provided the glued text parses to a message or still fails to parse |
| Decoder.ChunkIsCarried | lib/nuclide-test-runner-mocha.js:84-86 | a newline-free chunk that fails to parse after a carry, or starts a structured line, is carried whole and emits nothing |
| Decoder.ChunkCompletes | lib/nuclide-test-runner-mocha.js:80-82 | a newline-free chunk that completes a message emits exactly that message and clears the carry |
| Decoder.CarryAccumulates | lib/nuclide-test-runner-mocha.js:80-86 | after a carry, or from a chunk that starts a structured line, chunks accumulate until the whole parses, and then give exactly that message |
| Decoder.SplitLineReassembled | lib/nuclide-test-runner-mocha.js:77-92 | a message line split across any number of newline-free chunks, the first holding the whole `{"kind":` prefix and no shorter prefix parsing, is reassembled into the one message |
| Decoder.ShortFragmentIsNotCarried | lib/nuclide-test-runner-mocha.js:84 | a line split before the `{"kind":` prefix is complete is reported as two stderr fragments |
| Decoder.PoisonGrows | lib/nuclide-test-runner-mocha.js:84-86 | a carry that can never parse takes in the next piece, emits nothing, and still can never parse |
| Decoder.PoisonedCarryAbsorbs | lib/nuclide-test-runner-mocha.js:78-91 | once the carry can never parse, every later piece is appended to it and no message is emitted |
| Decoder.PoisonedChunk | lib/nuclide-test-runner-mocha.js:77-92 | after such a carry, a whole chunk emits nothing and its text, without newlines, is appended to the carry |
| Decoder.ReportOfPlainChunk | lib/nuclide-test-runner-mocha.js:78 | a chunk without a newline is decoded as a single line |
| Exec.Argv | lib/nuclide-test-runner-mocha.js:98 | options-file arguments, then user arguments, then `-C -R reporter`, then the test file last |
| Exec.OptionsFileCannotOverrideReporter | lib/nuclide-test-runner-mocha.js:98 | in the argv, no disallowed flag precedes the user's arguments, and `-R` with the bundled reporter sits just before the test file |
| Exec.ChildEnv | lib/nuclide-test-runner-mocha.js:99 | the parent environment plus `LOADED_MOCHA_OPTS=1`, with every other variable unchanged |
| Exec.PushStderr | lib/nuclide-test-runner-mocha.js:106-110 | complete lines are released and the newline-free rest is held; the released lines with their newlines, followed by the held text, are the old held text followed by the chunk |
| Exec.PushAll | lib/nuclide-test-runner-mocha.js:106-110 | across many chunks, the released lines and the held text together are exactly the text received |
| Exec.StderrAll | lib/nuclide-test-runner-mocha.js:109 | one stderr message per released line, in order |
| Exec.Handle | lib/nuclide-test-runner-mocha.js:101-120 | a stdout chunk changes only the carry and emits what the decoder makes of it; a stderr chunk changes only the held text and emits the released lines; a spawn error flushes, marks the run errored and rejects, leaving the carry and held text alone; only a spawn error sets the errored mark; close after an error does nothing; otherwise close flushes and resolves a pending run; the first settlement sticks; the decoder and buffer invariants are kept |
| Exec.RunKeepsInvariants | lib/nuclide-test-runner-mocha.js:104-120 | over any event sequence, the invariants hold and a settled run stays settled |
| Exec.ExitCodeIgnored | lib/nuclide-test-runner-mocha.js:116-120 | the close event's effect does not depend on the exit code |
| Exec.RunKeepsErrorSettled | lib/nuclide-test-runner-mocha.js:111-120 | once a spawn error has been seen, the run stays settled over any later events |
| Exec.CloseSettles | lib/nuclide-test-runner-mocha.js:111-120 | a run whose last event is the close has settled, whatever events came before |
| Exec.RunAppend | lib/nuclide-test-runner-mocha.js:104-120 | running two event sequences in turn equals running their concatenation |
| Exec.StdoutChunksDecode | lib/nuclide-test-runner-mocha.js:105 | standard-output chunks alone emit exactly what the decoder makes of them in arrival order, and change only the carry |
| Exec.RunWithoutSpawnError | lib/nuclide-test-runner-mocha.js:111-120 | without a spawn error the run never becomes errored or rejected, whatever the streams and exit code |
| Exec.StderrChunksGiveLines | lib/nuclide-test-runner-mocha.js:106-110 | standard-error chunks emit exactly the complete lines received, and hold back the rest |
| Exec.StderrThenClose | lib/nuclide-test-runner-mocha.js:116-120 | after stderr chunks and a close, every line is reported, the tail once if non-empty, the run resolves, and no text is lost |
| Exec.ErrorThenClose | lib/nuclide-test-runner-mocha.js:111-120 | a spawn error followed by close emits only the flush and leaves the run rejected with that error |
| Exec.PoisonedOutputIsLost | lib/nuclide-test-runner-mocha.js:105-120 | standard output after a carry that can never parse emits nothing, and the close flushes only the standard-error buffer, never the carried text |
| ProjectRoot.Locate | lib/nuclide-test-runner-mocha.js:66-75 | success gives the nearest ancestor-or-self holding the sentinel; failure happens iff no ancestor up to the root holds it |
| ProjectRoot.Cwd | lib/nuclide-test-runner-mocha.js:66-75 | the root found is a proper ancestor of the test file, holds the sentinel, and no nearer ancestor holds it; the lookup fails iff no ancestor of the file's directory holds the sentinel |
| ProjectRoot.LocateIsDeepestAncestor | lib/nuclide-test-runner-mocha.js:66-75 | the upward walk agrees with a downward scan from the root that remembers the last hit |
| ProjectRoot.StartDepthIrrelevant | lib/nuclide-test-runner-mocha.js:66-75 | starting from any directory between the root found and the start gives the same root |
| ProjectRoot.RootIsFixpoint | lib/nuclide-test-runner-mocha.js:68-69 | locating again from the root found finds the same root |
| Runner.Prepare | lib/nuclide-test-runner-mocha.js:150-153 | the command is the requested one and the environment is the parent's with the marker set; there is no launch iff no ancestor of the file's directory holds the sentinel; otherwise the child runs in the nearest such ancestor, the one `cwd` finds, and its arguments start with the options sanitised from the file read in that directory, followed by the user arguments, the reporter arguments and the test file |
| Runner.LaunchIn | lib/nuclide-test-runner-mocha.js:95-104 | the given command runs in the given root, in the parent's environment with the marker set; its arguments are the options sanitised from the file read there, with no disallowed flag, then the user arguments, the reporter arguments and the test file; an unreadable file adds no options |
| Runner.Conclude | lib/nuclide-test-runner-mocha.js:150-156 | a missing root gives a single error and finishes; otherwise the child's messages come out, followed by one error iff the run was rejected; the run finishes iff it settled |
| Runner.RunAll | lib/nuclide-test-runner-mocha.js:150-156 | without a root the run ends at once with a single error and nothing is spawned; with a root it finishes exactly when the child's run has settled |
| Runner.CloseFinishesRun | lib/nuclide-test-runner-mocha.js:150-156 | a child whose last event is the close always finishes the run, whatever came before |
| Runner.SpawnFailureReportsOnce | lib/nuclide-test-runner-mocha.js:124-126 | a child that cannot be spawned gives exactly one error message, and the run finishes |
| Runner.ExitCodeNeverFails | lib/nuclide-test-runner-mocha.js:111-120 | a child that closes without a spawn error, whatever it wrote and whatever its exit code, finishes the run with exactly its own messages and no error message |
| Runner.StderrOnlyChild | lib/nuclide-test-runner-mocha.js:106-120 | a child that only writes to standard error and exits reports every line, the unterminated tail once, and finishes without an error |
| Wire.Written | lib/reporter.js:23-25 | one serialised line per message, in order |
| Wire.ReporterOutputDecodes | lib/reporter.js:23-25 | the reporter's whole output, decoded, is the messages it wrote, then one empty stderr message for the final newline |

## Left out

- File-system and process I/O. This covers `fs.stat`, `fs.readFile`, `spawn`
  and the streams' `toString`. They are parameters: a set of paths, a read
  function, and the child's event sequence.
- `JSON.parse` and `JSON.stringify`. They are oracles, and the decoder's
  properties assume only what each lemma requires of them.
- Node's path-string handling. Paths are already split into segments, and
  `path.join` normalisation (`..`, repeated slashes) is not modelled.
- The `do`, `finally`, `subscribe` and `unsubscribe` plumbing, and promise
  scheduling. The completion callback is modelled as the `finished` flag of
  `Runner.Conclude`.
- An exception thrown by the UI callback inside `report`'s `try`. The model
  assumes the callback returns.
- The `start` timestamp in `exec`. It is computed and never used.
- The package's `export default`, its configuration schema and
  `provideTestRunner`. They are editor glue.
- The location of the bundled reporter (`require.resolve`). It is a
  parameter.
- Reporter.TestInfoOf: the duration is kept in integer milliseconds. The wire
  carries `durationSecs` as a float divided by 1000. The id sits in
  `test_json.id`, and the model flattens it into `testJsonId`.
- Reporter.Summaries: Mocha's `eachTest` enumeration order is a given
  sequence. Mocha's suite tree is not modelled.
- Reporter.Handlers: the `process.nextTick` deferral of `report` is not
  modelled. Results are written in the order of the test-end events.
- Lookups in `BAD_OPTS` and `OK_OPTS` by inherited object keys, such as
  `constructor`. Only the tables' own keys are modelled.
- Runner.Conclude: the model assumes no stream event fires after the event
  that settles the run. The child's messages all come before the completion
  callback. In the code, output arriving after the settling event would reach
  the UI after `done`.
- Exec.Handle: a stdout or stderr event after close is still processed. The
  model does not restrict the order in which the child fires events.
- Decoder.Report: chunks are sequences of characters, so a chunk boundary
  always falls between characters. The code decodes each chunk with
  `toString` on its own, and a multi-byte UTF-8 character split across two
  chunks becomes replacement characters. That case is not modelled.

=== FILE: decoder.dfy ===
/** The runner's standard-output decoder (`report`): every chunk is split on
    newlines and each piece is folded through a carry buffer that reassembles
    structured lines broken across chunks. `JSON.parse` is an oracle. */
module Decoder {
  import opened Strings
  import opened Protocol

  /** The text every structured line of the reporter begins with. */
  const KindPrefix: string := "{\"kind\":"

  /** What parsing a text as JSON and testing for an object with a `kind`
      field make of it: a parse error; `null`, whose `.kind` throws inside the
      same `try`; an object with a truthy `kind`; or any other value. */
  datatype Parsed = ParseFail | NullValue | ObjWithKind(msg: Message) | OtherValue

  /** The decoder's state after some input, with the messages it emitted. */
  datatype Decoded = Decoded(carry: string, out: seq<Message>)

  /** The carry buffer is empty or holds the start of a structured line. */
  predicate ValidCarry(carry: string)
  {
    carry == "" || KindPrefix <= carry
  }

  /** One newline-separated piece `l`. The carry is cleared as soon as the
      parse succeeds, before the `kind` test, so a parsed value without a
      `kind` reports only `l` and the carried text is dropped. */
  function Step(parse: string -> Parsed, carry: string, l: string): (r: Decoded)
    ensures |r.out| <= 1
    ensures r.out == [] <==> r.carry != ""
    ensures ValidCarry(carry) ==> ValidCarry(r.carry)
    ensures parse(carry + l).ObjWithKind? ==> r == Decoded("", [parse(carry + l).msg])
    ensures parse(carry + l) == ParseFail && carry != "" ==> r == Decoded(carry + l, [])
    ensures parse(carry + l) == ParseFail && carry == "" && !(KindPrefix <= l) ==> r == Decoded("", [Stderr(l)])
    ensures parse(carry + l) == ParseFail && carry == "" && KindPrefix <= l ==> r == Decoded(l, [])
    ensures parse(carry + l) == NullValue ==>
      r == (if KindPrefix <= l then Decoded(l, []) else Decoded("", [Stderr(l)]))
    ensures parse(carry + l) == OtherValue ==> r == Decoded("", [Stderr(l)])
  {
    match parse(carry + l)
    case ObjWithKind(m) => Decoded("", [m])
    case OtherValue => Decoded("", [Stderr(l)])
    case NullValue => if KindPrefix <= l then Decoded(l, []) else Decoded("", [Stderr(l)])
    case ParseFail =>
      if carry != "" || KindPrefix <= l then Decoded(carry + l, [])
      else assert carry + l == l; Decoded("", [Stderr(carry + l)])
  }

  /** The pieces of one chunk, handled in order. */
  function FeedLines(parse: string -> Parsed, carry: string, ls: seq<string>): (r: Decoded)
    ensures |r.out| <= |ls|
    ensures ValidCarry(carry) ==> ValidCarry(r.carry)
    decreases |ls|
  {
    if |ls| == 0 then Decoded(carry, [])
    else
      var d := Step(parse, carry, ls[0]);
      var rest := FeedLines(parse, d.carry, ls[1..]);
      Decoded(rest.carry, d.out + rest.out)
  }

  /** `report`: one chunk of standard output. */
  function Report(parse: string -> Parsed, carry: string, chunk: string): (r: Decoded)
    ensures |r.out| <= CountWhere(chunk, IsNewline) + 1
    ensures ValidCarry(carry) ==> ValidCarry(r.carry)
  {
    FeedLines(parse, carry, Split(chunk, IsNewline))
  }

  /** A sequence of chunks, in arrival order. */
  function ReportAll(parse: string -> Parsed, carry: string, chunks: seq<string>): (r: Decoded)
    ensures ValidCarry(carry) ==> ValidCarry(r.carry)
    decreases |chunks|
  {
    if |chunks| == 0 then Decoded(carry, [])
    else
      var d := Report(parse, carry, chunks[0]);
      var rest := ReportAll(parse, d.carry, chunks[1..]);
      Decoded(rest.carry, d.out + rest.out)
  }

  /** What a line means on its own: the message it parses to, or stderr text. */
  function Classify(parse: string -> Parsed, l: string): Message
  {
    if parse(l).ObjWithKind? then parse(l).msg else Stderr(l)
  }

  function ClassifyAll(parse: string -> Parsed, ls: seq<string>): (r: seq<Message>)
    ensures |r| == |ls|
    ensures forall i :: 0 <= i < |ls| ==> r[i] == Classify(parse, ls[i])
  {
    if |ls| == 0 then [] else [Classify(parse, ls[0])] + ClassifyAll(parse, ls[1..])
  }

  /** A line the decoder never holds back when nothing is carried: it parses
      to a message, or it does not look like the start of one. */
  predicate Standalone(parse: string -> Parsed, l: string)
  {
    parse(l).ObjWithKind? || !(KindPrefix <= l)
  }

  /* ---------------- Lemmas ---------------- */

  /** Plain-text lines interleaved with structured lines give one stderr
      message per plain line and the parsed message per structured line, in
      arrival order, and nothing stays carried. */
  lemma {:induction false} InterleavedLines(parse: string -> Parsed, ls: seq<string>)
    requires forall i :: 0 <= i < |ls| ==> Standalone(parse, ls[i])
    ensures FeedLines(parse, "", ls) == Decoded("", ClassifyAll(parse, ls))
    decreases |ls|
  {
    if |ls| > 0 {
      assert "" + ls[0] == ls[0];
      InterleavedLines(parse, ls[1..]);
    }
  }

  /** The same for one chunk holding the lines joined by newlines. */
  lemma InterleavedChunk(parse: string -> Parsed, ls: seq<string>)
    requires |ls| >= 1
    requires forall i :: 0 <= i < |ls| ==> Standalone(parse, ls[i]) && NoneSatisfy(ls[i], IsNewline)
    ensures Report(parse, "", Join(ls, '\n')) == Decoded("", ClassifyAll(parse, ls))
  {
    SplitOfJoin(ls, '\n', IsNewline);
    InterleavedLines(parse, ls);
  }

  /** A chunk that ends with a newline yields a final empty piece; with
      nothing carried, that piece is reported as an empty stderr message. */
  lemma TrailingNewline(parse: string -> Parsed, x: string, m: Message)
    requires NoneSatisfy(x, IsNewline)
    requires parse(x) == ObjWithKind(m) && parse("") == ParseFail
    ensures Report(parse, "", x + "\n") == Decoded("", [m, Stderr("")])
  {
    var ls := [x, ""];
    assert Join(ls, '\n') == x + "\n" by {
      assert ls[1..] == [""];
    }
    InterleavedChunk(parse, ls);
    assert ClassifyAll(parse, ls) == [m, Stderr("")];
  }

  /** Once a piece is carried, gluing the next piece to it gives the same
      result as having received the two as one piece, provided the glued text
      either parses to a message or still fails to parse. */
  lemma CarriedPieceJoins(parse: string -> Parsed, carry: string, a: string, b: string)
    requires Step(parse, carry, a).out == []
    requires parse(carry + a) == ParseFail
    requires parse(carry + a + b).ParseFail? || parse(carry + a + b).ObjWithKind?
    ensures Step(parse, Step(parse, carry, a).carry, b) == Step(parse, carry, a + b)
  {
    assert Step(parse, carry, a).carry == carry + a;
    assert carry + a + b == carry + (a + b);
    if carry == "" {
      assert KindPrefix <= a;
      assert KindPrefix <= a + b;
    }
  }

  lemma {:induction false} ConcatHasNoNewline(cs: seq<string>)
    requires forall i :: 0 <= i < |cs| ==> NoneSatisfy(cs[i], IsNewline)
    ensures NoneSatisfy(Concat(cs), IsNewline)
    decreases |cs|
  {
    if |cs| > 0 {
      ConcatHasNoNewline(cs[1..]);
      var c := Concat(cs);
      assert c == cs[0] + Concat(cs[1..]);
      forall j | 0 <= j < |c| ensures !IsNewline(c[j]) {
        if j >= |cs[0]| {
          assert c[j] == Concat(cs[1..])[j - |cs[0]|];
        }
      }
    }
  }

  /** A chunk without newlines is a single piece. */
  lemma ReportOfPlainChunk(parse: string -> Parsed, carry: string, chunk: string)
    requires NoneSatisfy(chunk, IsNewline)
    ensures Report(parse, carry, chunk) == Step(parse, carry, chunk)
  {
    SplitOfPlain(chunk, IsNewline);
    var d := Step(parse, carry, chunk);
    assert FeedLines(parse, carry, [chunk]) == Decoded(d.carry, d.out + []);
    assert d.out + [] == d.out;
  }

  /** A newline-free chunk that still fails to parse after a carry, or
      starts a structured line, is carried whole and emits nothing. */
  lemma ChunkIsCarried(parse: string -> Parsed, carry: string, chunk: string)
    requires NoneSatisfy(chunk, IsNewline)
    requires parse(carry + chunk) == ParseFail
    requires carry != "" || KindPrefix <= chunk
    ensures Report(parse, carry, chunk) == Decoded(carry + chunk, [])
  {
    ReportOfPlainChunk(parse, carry, chunk);
    assert carry == "" ==> carry + chunk == chunk;
  }

  /** A newline-free chunk that completes a message emits just that message
      and clears the carry. */
  lemma ChunkCompletes(parse: string -> Parsed, carry: string, chunk: string, m: Message)
    requires NoneSatisfy(chunk, IsNewline)
    requires parse(carry + chunk) == ObjWithKind(m)
    ensures Report(parse, carry, chunk) == Decoded("", [m])
  {
    ReportOfPlainChunk(parse, carry, chunk);
  }

  /** A carry keeps absorbing chunks until the accumulated text parses to a
      message, which is then emitted once. The carry is non-empty, or the
      first chunk starts a structured line. */
  lemma {:induction false} CarryAccumulates(parse: string -> Parsed, carry: string, rest: seq<string>, m: Message)
    requires |rest| >= 1 && (carry != "" || KindPrefix <= rest[0])
    requires forall i :: 0 <= i < |rest| ==> NoneSatisfy(rest[i], IsNewline)
    requires forall k :: 1 <= k < |rest| ==> parse(carry + Concat(rest[..k])) == ParseFail
    requires parse(carry + Concat(rest)) == ObjWithKind(m)
    ensures ReportAll(parse, carry, rest) == Decoded("", [m])
    decreases |rest|
  {
    var tail := rest[1..];
    assert Concat(rest) == rest[0] + Concat(tail);
    assert |rest| > 1 ==> Concat(rest[..1]) == rest[0] by {
      assert rest[..1][1..] == [];
    }
    if |rest| == 1 {
      assert tail == [] && rest[0] + "" == rest[0];
      ChunkCompletes(parse, carry, rest[0], m);
      assert ReportAll(parse, "", tail) == Decoded("", []);
      assert [m] + [] == [m];
    } else {
      var carry' := carry + rest[0];
      assert parse(carry + Concat(rest[..1])) == ParseFail;
      ChunkIsCarried(parse, carry, rest[0]);
      ShiftPrefixes(parse, carry, rest);
      assert carry + Concat(rest) == carry' + Concat(tail);
      CarryAccumulates(parse, carry', tail, m);
      assert [] + [m] == [m];
    }
  }

  /** Moving the first piece into the carry: the prefixes of the remaining
      pieces, after the grown carry, are the longer prefixes of the whole. */
  lemma ShiftPrefixes(parse: string -> Parsed, carry: string, rest: seq<string>)
    requires |rest| >= 1
    requires forall k :: 1 <= k < |rest| ==> parse(carry + Concat(rest[..k])) == ParseFail
    ensures forall k :: 1 <= k < |rest| - 1 ==> parse((carry + rest[0]) + Concat(rest[1..][..k])) == ParseFail
  {
    var tail := rest[1..];
    forall k | 1 <= k < |rest| - 1 ensures parse((carry + rest[0]) + Concat(tail[..k])) == ParseFail {
      assert rest[..k + 1][1..] == tail[..k];
      assert Concat(rest[..k + 1]) == rest[0] + Concat(tail[..k]);
      assert carry + Concat(rest[..k + 1]) == (carry + rest[0]) + Concat(tail[..k]);
    }
  }

  /** A structured line delivered in any number of newline-free chunks is
      decoded exactly as if it had arrived whole: one message, nothing left
      carried. The first chunk must already hold the whole `{"kind":` prefix,
      since a shorter first fragment is reported as stderr text. */
  lemma SplitLineReassembled(parse: string -> Parsed, cs: seq<string>, m: Message)
    requires |cs| >= 1 && KindPrefix <= cs[0]
    requires forall i :: 0 <= i < |cs| ==> NoneSatisfy(cs[i], IsNewline)
    requires forall k :: 1 <= k < |cs| ==> parse(Concat(cs[..k])) == ParseFail
    requires parse(Concat(cs)) == ObjWithKind(m)
    ensures ReportAll(parse, "", cs) == Decoded("", [m])
    ensures Report(parse, "", Concat(cs)) == Decoded("", [m])
  {
    ConcatHasNoNewline(cs);
    ReportOfPlainChunk(parse, "", Concat(cs));
    assert "" + Concat(cs) == Concat(cs);
    if |cs| == 1 {
      SingleChunkLine(parse, cs, m);
    } else {
      ChunkedLine(parse, cs, m);
    }
  }

  lemma SingleChunkLine(parse: string -> Parsed, cs: seq<string>, m: Message)
    requires |cs| == 1 && NoneSatisfy(cs[0], IsNewline)
    requires parse(Concat(cs)) == ObjWithKind(m)
    ensures ReportAll(parse, "", cs) == Decoded("", [m])
  {
    ReportOfPlainChunk(parse, "", cs[0]);
    assert "" + cs[0] == cs[0];
    assert Concat(cs) == cs[0] + Concat(cs[1..]);
    assert Concat(cs) == cs[0];
    assert ReportAll(parse, "", []) == Decoded("", []);
    assert [m] + [] == [m];
  }

  lemma ChunkedLine(parse: string -> Parsed, cs: seq<string>, m: Message)
    requires |cs| >= 2 && KindPrefix <= cs[0]
    requires forall i :: 0 <= i < |cs| ==> NoneSatisfy(cs[i], IsNewline)
    requires forall k :: 1 <= k < |cs| ==> parse(Concat(cs[..k])) == ParseFail
    requires parse(Concat(cs)) == ObjWithKind(m)
    ensures ReportAll(parse, "", cs) == Decoded("", [m])
  {
    forall k | 1 <= k < |cs| ensures parse("" + Concat(cs[..k])) == ParseFail {
      assert "" + Concat(cs[..k]) == Concat(cs[..k]);
    }
    assert "" + Concat(cs) == Concat(cs);
    CarryAccumulates(parse, "", cs, m);
  }

  /** The two-chunk scenario `{"kind":"summary",…}\n{"ki` then
      `nd":"start"}\n`: the summary is decoded, but both fragments of the
      start line are reported as stderr text, followed by the empty piece
      after the final newline. */
  lemma ShortFragmentIsNotCarried(parse: string -> Parsed, summaryLine: string, s: Message)
    requires NoneSatisfy(summaryLine, IsNewline)
    requires parse(summaryLine) == ObjWithKind(s)
    requires parse("{\"ki") == ParseFail
    requires parse("nd\":\"start\"}") == ParseFail
    requires parse("") == ParseFail
    ensures ReportAll(parse, "", [summaryLine + "\n{\"ki", "nd\":\"start\"}\n"]).out
         == [s, Stderr("{\"ki"), Stderr("nd\":\"start\"}"), Stderr("")]
  {
    ScenarioFirstChunk(parse, summaryLine, s);
    ScenarioSecondChunk(parse);
    ReportAllPair(parse, "", summaryLine + "\n{\"ki", "nd\":\"start\"}\n");
  }

  /** Two chunks are decoded one after the other, the second starting from
      the carry the first left. */
  lemma ReportAllPair(parse: string -> Parsed, carry: string, c1: string, c2: string)
    ensures
      var d1 := Report(parse, carry, c1);
      var d2 := Report(parse, d1.carry, c2);
      ReportAll(parse, carry, [c1, c2]) == Decoded(d2.carry, d1.out + d2.out)
  {
    var d1 := Report(parse, carry, c1);
    var d2 := Report(parse, d1.carry, c2);
    assert [c1, c2][1..] == [c2];
    assert [c2][1..] == [];
    assert ReportAll(parse, d1.carry, [c2]) == Decoded(d2.carry, d2.out + []);
    assert d2.out + [] == d2.out;
  }

  lemma ScenarioFirstChunk(parse: string -> Parsed, summaryLine: string, s: Message)
    requires NoneSatisfy(summaryLine, IsNewline)
    requires parse(summaryLine) == ObjWithKind(s)
    requires parse("{\"ki") == ParseFail
    ensures Report(parse, "", summaryLine + "\n{\"ki") == Decoded("", [s, Stderr("{\"ki")])
  {
    var first := [summaryLine, "{\"ki"];
    assert Join(first, '\n') == summaryLine + "\n{\"ki" by {
      assert first[1..] == ["{\"ki"];
    }
    assert !(KindPrefix <= "{\"ki");
    assert NoneSatisfy("{\"ki", IsNewline);
    InterleavedChunk(parse, first);
    assert ClassifyAll(parse, first) == [s, Stderr("{\"ki")];
  }

  lemma ScenarioSecondChunk(parse: string -> Parsed)
    requires parse("nd\":\"start\"}") == ParseFail
    requires parse("") == ParseFail
    ensures Report(parse, "", "nd\":\"start\"}\n") == Decoded("", [Stderr("nd\":\"start\"}"), Stderr("")])
  {
    var second := ["nd\":\"start\"}", ""];
    assert Join(second, '\n') == "nd\":\"start\"}\n" by {
      assert second[1..] == [""];
    }
    assert KindPrefix[0] != "nd\":\"start\"}"[0];
    assert NoneSatisfy("nd\":\"start\"}", IsNewline);
    InterleavedChunk(parse, second);
    assert ClassifyAll(parse, second) == [Stderr("nd\":\"start\"}"), Stderr("")];
  }

  /** A carry that no continuation can make parse: it starts a structured
      line that is already malformed. */
  ghost predicate Poisoned(parse: string -> Parsed, carry: string)
  {
    carry != "" && forall t {:trigger parse(carry + t)} :: parse(carry + t) == ParseFail
  }

  /** A poisoned carry swallows every later piece: nothing is emitted again
      and the pieces pile up in the carry, newlines dropped. */
  lemma {:induction false} PoisonedCarryAbsorbs(parse: string -> Parsed, carry: string, ls: seq<string>)
    requires Poisoned(parse, carry)
    ensures FeedLines(parse, carry, ls) == Decoded(carry + Concat(ls), [])
    decreases |ls|
  {
    if |ls| == 0 {
      assert carry + "" == carry;
    } else {
      var next := carry + ls[0];
      PoisonGrows(parse, carry, ls[0]);
      PoisonedCarryAbsorbs(parse, next, ls[1..]);
      var rest := FeedLines(parse, next, ls[1..]);
      assert FeedLines(parse, carry, ls) == Decoded(rest.carry, [] + rest.out);
      assert Concat(ls) == ls[0] + Concat(ls[1..]);
      assert next + Concat(ls[1..]) == carry + Concat(ls);
    }
  }

  /** Text appended to a poisoned carry leaves it poisoned, and the piece
      itself is carried. */
  lemma PoisonGrows(parse: string -> Parsed, carry: string, l: string)
    requires Poisoned(parse, carry)
    ensures Poisoned(parse, carry + l)
    ensures Step(parse, carry, l) == Decoded(carry + l, [])
  {
    assert parse(carry + l) == ParseFail;
    forall t ensures parse((carry + l) + t) == ParseFail {
      assert (carry + l) + t == carry + (l + t);
    }
  }

  /** The same for a whole chunk: its text, newlines removed, joins the
      carry and no message comes out. */
  lemma PoisonedChunk(parse: string -> Parsed, carry: string, chunk: string)
    requires Poisoned(parse, carry)
    ensures Report(parse, carry, chunk) == Decoded(carry + Without(chunk, IsNewline), [])
  {
    PoisonedCarryAbsorbs(parse, carry, Split(chunk, IsNewline));
    SplitDropsOnlySeparators(chunk, IsNewline);
  }
}

=== FILE: exec.dfy ===
/** The launcher (`exec`): the argument vector and environment of the child
    process, the line buffer on its standard error, and how its stream,
    error and close events turn into messages and settle the run. */
module Exec {
  import opened Strings
  import opened Protocol
  import opened Decoder
  import OptionsFile

  /** The fixed arguments: colourless output through the reporter at
      `reporter`. */
  function ReporterArgs(reporter: string): seq<string>
  {
    ["-C", "-R", reporter]
  }

  /** The child's arguments: the sanitised options, the user's arguments, the
      fixed reporter arguments, and the test file last. */
  function Argv(opts: seq<string>, userArgs: seq<string>, reporter: string, uri: string): (r: seq<string>)
    ensures |r| == |opts| + |userArgs| + 4
    ensures r[|r| - 1] == uri
    ensures r[..|opts|] == opts
    ensures r[|opts|..|opts| + |userArgs|] == userArgs
    ensures r[|opts| + |userArgs|..|r| - 1] == ReporterArgs(reporter)
  {
    opts + userArgs + ReporterArgs(reporter) + [uri]
  }

  /** Arguments taken from an options file can never name another reporter
      or options file: before the user's own arguments no disallowed flag
      occurs, so the injected `-R` is the only one the runner adds. */
  lemma OptionsFileCannotOverrideReporter(text: string, userArgs: seq<string>, reporter: string, uri: string)
    ensures
      var opts := OptionsFile.Options(text);
      var r := Argv(opts, userArgs, reporter, uri);
      && r[|r| - 1] == uri
      && r[|opts| + |userArgs| + 1] == "-R" && r[|opts| + |userArgs| + 2] == reporter
      && forall i :: 0 <= i < |opts| ==> r[i] !in OptionsFile.BadOpts
  {
  }

  /** The marker that tells the child not to read the options file again. */
  const LoadedMarker: string := "LOADED_MOCHA_OPTS"

  /** The child's environment: the parent's, with the marker set to one
      (environment values are strings). */
  function ChildEnv(parent: map<string, string>): (r: map<string, string>)
    ensures r.Keys == parent.Keys + {LoadedMarker}
    ensures r[LoadedMarker] == "1"
    ensures forall k :: k in parent && k != LoadedMarker ==> r[k] == parent[k]
  {
    parent[LoadedMarker := "1"]
  }

  /* ---------------- The standard-error line buffer ---------------- */

  /** The complete lines released by a chunk and the incomplete text held. */
  datatype LineBuffer = LineBuffer(held: string, lines: seq<string>)

  /** One chunk of standard error: the held text and the chunk are split at
      newlines; the last piece is held back and the others are released. */
  function PushStderr(held: string, d: string): (r: LineBuffer)
    ensures NoneSatisfy(r.held, IsNewline)
    ensures forall i :: 0 <= i < |r.lines| ==> NoneSatisfy(r.lines[i], IsNewline)
    ensures Terminated(r.lines, '\n') + r.held == held + d
  {
    var ls := Split(held + d, IsNewline);
    SplitPiecesHaveNoSeparator(held + d, IsNewline);
    JoinOfSplit(held + d, '\n', IsNewline);
    JoinAsTerminated(ls, '\n');
    LineBuffer(ls[|ls| - 1], ls[..|ls| - 1])
  }

  /** Several chunks of standard error in arrival order. */
  function PushAll(held: string, ds: seq<string>): (r: LineBuffer)
    requires NoneSatisfy(held, IsNewline)
    ensures NoneSatisfy(r.held, IsNewline)
    ensures forall i :: 0 <= i < |r.lines| ==> NoneSatisfy(r.lines[i], IsNewline)
    ensures Terminated(r.lines, '\n') + r.held == held + Concat(ds)
    decreases |ds|
  {
    if |ds| == 0 then
      assert held + Concat(ds) == held;
      LineBuffer(held, [])
    else
      var b := PushStderr(held, ds[0]);
      var rest := PushAll(b.held, ds[1..]);
      PushAllStep(held, ds, b, rest);
      LineBuffer(rest.held, b.lines + rest.lines)
  }

  lemma PushAllStep(held: string, ds: seq<string>, b: LineBuffer, rest: LineBuffer)
    requires |ds| >= 1
    requires Terminated(b.lines, '\n') + b.held == held + ds[0]
    requires Terminated(rest.lines, '\n') + rest.held == b.held + Concat(ds[1..])
    ensures Terminated(b.lines + rest.lines, '\n') + rest.held == held + Concat(ds)
  {
    TerminatedAppend(b.lines, rest.lines, '\n');
    assert Concat(ds) == ds[0] + Concat(ds[1..]);
    Reassociate(Terminated(b.lines, '\n'), Terminated(rest.lines, '\n'), b.held, rest.held,
                held, ds[0], Concat(ds[1..]));
  }

  /** Released text followed by held text, for two consecutive pushes. */
  lemma Reassociate(t1: string, t2: string, h1: string, h2: string, start: string, d: string, more: string)
    requires t1 + h1 == start + d
    requires t2 + h2 == h1 + more
    ensures (t1 + t2) + h2 == start + (d + more)
  {
    calc {
      (t1 + t2) + h2;
      t1 + (t2 + h2);
      t1 + (h1 + more);
      (t1 + h1) + more;
      (start + d) + more;
    }
  }

  function StderrAll(lines: seq<string>): (r: seq<Message>)
    ensures |r| == |lines|
    ensures forall i :: 0 <= i < |lines| ==> r[i] == Stderr(lines[i])
  {
    if |lines| == 0 then [] else [Stderr(lines[0])] + StderrAll(lines[1..])
  }

  /** `flush`: the held text, if any, as one message. The buffer is not
      cleared. */
  function Flush(held: string): seq<Message>
  {
    if held != "" then [Stderr(held)] else []
  }

  /* ---------------- The child's events ---------------- */

  datatype ChildEvent =
    | StdoutData(chunk: string)
    | StderrData(chunk: string)
    | SpawnError(err: string)
    | Close(code: int)

  /** The run's promise: it settles once, later settlements are ignored. */
  datatype Settlement = Pending | Resolved | Rejected(err: string)

  function Settle(cur: Settlement, next: Settlement): Settlement
  {
    if cur.Pending? then next else cur
  }

  datatype ExecState = ExecState(carry: string, held: string, errored: bool, settled: Settlement)

  const Initial: ExecState := ExecState("", "", false, Pending)

  /** A state every run keeps: a valid decoder carry and a newline-free
      standard-error buffer. */
  predicate Good(s: ExecState)
  {
    ValidCarry(s.carry) && NoneSatisfy(s.held, IsNewline)
  }

  datatype Outcome = Outcome(state: ExecState, out: seq<Message>)

  /** The handlers attached in `exec`. */
  function Handle(parse: string -> Parsed, s: ExecState, ev: ChildEvent): (r: Outcome)
    ensures Good(s) ==> Good(r.state)
    ensures !s.settled.Pending? ==> r.state.settled == s.settled
    ensures s.errored ==> r.state.errored
    ensures ev.Close? && s.errored ==> r == Outcome(s, [])
    ensures ev.Close? && !s.errored ==> r.out == Flush(s.held) && !r.state.settled.Pending?
    ensures ev.Close? && !s.errored && s.settled.Pending? ==> r.state.settled == Resolved
    ensures ev.Close? ==> r.state.carry == s.carry && r.state.held == s.held
    ensures ev.StdoutData? ==>
      var dec := Report(parse, s.carry, ev.chunk);
      r == Outcome(s.(carry := dec.carry), dec.out)
    ensures ev.StderrData? ==>
      var b := PushStderr(s.held, ev.chunk);
      r == Outcome(s.(held := b.held), StderrAll(b.lines))
    ensures ev.SpawnError? ==> r.state.errored && r.out == Flush(s.held)
    ensures ev.SpawnError? && s.settled.Pending? ==> r.state.settled == Rejected(ev.err)
    ensures ev.SpawnError? ==> r.state.carry == s.carry && r.state.held == s.held
    ensures !ev.SpawnError? ==> r.state.errored == s.errored
  {
    match ev
    case StdoutData(d) =>
      var dec := Report(parse, s.carry, d);
      Outcome(s.(carry := dec.carry), dec.out)
    case StderrData(d) =>
      var b := PushStderr(s.held, d);
      Outcome(s.(held := b.held), StderrAll(b.lines))
    case SpawnError(e) =>
      Outcome(s.(errored := true, settled := Settle(s.settled, Rejected(e))), Flush(s.held))
    case Close(_) =>
      if s.errored then Outcome(s, [])
      else Outcome(s.(settled := Settle(s.settled, Resolved)), Flush(s.held))
  }

  /** The handlers as one function of the state and the event. */
  function Handler(parse: string -> Parsed): (ExecState, ChildEvent) -> Outcome
  {
    (s: ExecState, ev: ChildEvent) => Handle(parse, s, ev)
  }

  /** Events handled in the order they fire, the messages concatenated. */
  function FoldEvents(h: (ExecState, ChildEvent) -> Outcome, s: ExecState, evs: seq<ChildEvent>): Outcome
    decreases |evs|
  {
    if |evs| == 0 then Outcome(s, [])
    else
      var o := h(s, evs[0]);
      var rest := FoldEvents(h, o.state, evs[1..]);
      Outcome(rest.state, o.out + rest.out)
  }

  /** The events of one child process in the order they fire. */
  function Run(parse: string -> Parsed, s: ExecState, evs: seq<ChildEvent>): Outcome
  {
    FoldEvents(Handler(parse), s, evs)
  }

  /** Over any sequence of events the decoder and buffer invariants hold, and
      a settled run stays settled with the same outcome. */
  lemma {:induction false} RunKeepsInvariants(parse: string -> Parsed, s: ExecState, evs: seq<ChildEvent>)
    ensures Good(s) ==> Good(Run(parse, s, evs).state)
    ensures !s.settled.Pending? ==> Run(parse, s, evs).state.settled == s.settled
    decreases |evs|
  {
    if |evs| > 0 {
      RunKeepsInvariants(parse, Handle(parse, s, evs[0]).state, evs[1..]);
    }
  }

  /** The exit code is never inspected. */
  lemma ExitCodeIgnored(parse: string -> Parsed, s: ExecState, a: int, b: int)
    ensures Handle(parse, s, Close(a)) == Handle(parse, s, Close(b))
  {
  }

  function StdoutEvents(cs: seq<string>): (r: seq<ChildEvent>)
    ensures |r| == |cs|
    ensures forall i :: 0 <= i < |cs| ==> r[i] == StdoutData(cs[i])
  {
    if |cs| == 0 then [] else [StdoutData(cs[0])] + StdoutEvents(cs[1..])
  }

  function StderrEvents(ds: seq<string>): (r: seq<ChildEvent>)
    ensures |r| == |ds|
    ensures forall i :: 0 <= i < |ds| ==> r[i] == StderrData(ds[i])
  {
    if |ds| == 0 then [] else [StderrData(ds[0])] + StderrEvents(ds[1..])
  }

  lemma {:induction false} StderrAllAppend(a: seq<string>, b: seq<string>)
    ensures StderrAll(a + b) == StderrAll(a) + StderrAll(b)
  {
  }

  /** Standard-error chunks alone: the run emits exactly the complete lines
      of the text received so far, and holds back the rest. */
  lemma {:induction false} StderrChunksGiveLines(parse: string -> Parsed, s: ExecState, ds: seq<string>)
    requires NoneSatisfy(s.held, IsNewline)
    ensures
      var b := PushAll(s.held, ds);
      Run(parse, s, StderrEvents(ds)) == Outcome(s.(held := b.held), StderrAll(b.lines))
    decreases |ds|
  {
    if |ds| > 0 {
      var b := PushStderr(s.held, ds[0]);
      var s' := s.(held := b.held);
      assert StderrEvents(ds)[1..] == StderrEvents(ds[1..]);
      StderrChunksGiveLines(parse, s', ds[1..]);
      StderrAllAppend(b.lines, PushAll(b.held, ds[1..]).lines);
    }
  }

  lemma {:induction false} FoldEventsAppend(h: (ExecState, ChildEvent) -> Outcome, s: ExecState,
                                            a: seq<ChildEvent>, b: seq<ChildEvent>)
    ensures
      var x := FoldEvents(h, s, a);
      var y := FoldEvents(h, x.state, b);
      FoldEvents(h, s, a + b) == Outcome(y.state, x.out + y.out)
    decreases |a|
  {
    if |a| == 0 {
      assert a + b == b;
    } else {
      var o := h(s, a[0]);
      FoldEventsAppend(h, o.state, a[1..], b);
      FoldEventsFirst(h, s, a[0], a[1..]);
      FoldEventsFirst(h, s, a[0], a[1..] + b);
      assert a == [a[0]] + a[1..] && a + b == [a[0]] + (a[1..] + b);
      var x' := FoldEvents(h, o.state, a[1..]);
      var y := FoldEvents(h, x'.state, b);
      assert o.out + (x'.out + y.out) == (o.out + x'.out) + y.out;
    }
  }

  lemma FoldEventsFirst(h: (ExecState, ChildEvent) -> Outcome, s: ExecState, e: ChildEvent, rest: seq<ChildEvent>)
    ensures
      var o := h(s, e);
      var r := FoldEvents(h, o.state, rest);
      FoldEvents(h, s, [e] + rest) == Outcome(r.state, o.out + r.out)
  {
    assert ([e] + rest)[0] == e && ([e] + rest)[1..] == rest;
  }

  /** A run is its first event's handling followed by the run of the rest. */
  lemma RunFirst(parse: string -> Parsed, s: ExecState, evs: seq<ChildEvent>)
    requires |evs| > 0
    ensures
      var o := Handle(parse, s, evs[0]);
      var rest := Run(parse, o.state, evs[1..]);
      Run(parse, s, evs) == Outcome(rest.state, o.out + rest.out)
  {
  }

  /** Running two event sequences in turn is running their concatenation. */
  lemma RunAppend(parse: string -> Parsed, s: ExecState, a: seq<ChildEvent>, b: seq<ChildEvent>)
    ensures
      var x := Run(parse, s, a);
      var y := Run(parse, x.state, b);
      Run(parse, s, a + b) == Outcome(y.state, x.out + y.out)
  {
    FoldEventsAppend(Handler(parse), s, a, b);
  }

  /** Standard-error chunks followed by a normal close: every line is
      reported, the unterminated tail once more if it is non-empty, and the
      run resolves whatever the exit code. Together the messages carry all
      of the text, newlines aside. */
  lemma StderrThenClose(parse: string -> Parsed, ds: seq<string>, code: int)
    ensures
      var b := PushAll("", ds);
      var r := Run(parse, Initial, StderrEvents(ds) + [Close(code)]);
      && r.out == StderrAll(b.lines) + Flush(b.held)
      && r.state.settled == Resolved
      && Terminated(b.lines, '\n') + b.held == Concat(ds)
  {
    var b := PushAll("", ds);
    StderrChunksGiveLines(parse, Initial, ds);
    RunAppend(parse, Initial, StderrEvents(ds), [Close(code)]);
    var s := Initial.(held := b.held);
    RunFirst(parse, s, [Close(code)]);
    assert Run(parse, s, [Close(code)]) == Outcome(s.(settled := Resolved), Flush(b.held) + []);
    assert "" + Concat(ds) == Concat(ds);
    assert Flush(b.held) + [] == Flush(b.held);
  }

  /** After a spawn error the close event adds nothing, and the run stays
      rejected with the first error. */
  lemma ErrorThenClose(parse: string -> Parsed, s: ExecState, err: string, code: int)
    requires s.settled.Pending?
    ensures
      var r := Run(parse, s, [SpawnError(err), Close(code)]);
      r.out == Flush(s.held) && r.state.settled == Rejected(err)
  {
    var o := Handle(parse, s, SpawnError(err));
    assert [SpawnError(err), Close(code)][1..] == [Close(code)];
    RunFirst(parse, s, [SpawnError(err), Close(code)]);
    RunFirst(parse, o.state, [Close(code)]);
    assert Run(parse, o.state, [Close(code)]) == Outcome(o.state, [] + []);
    assert o.out + ([] + []) == o.out;
  }

  /** A poisoned carry is lost: later standard output emits nothing, and the
      close event flushes only the standard-error buffer, never the carry. */
  lemma PoisonedOutputIsLost(parse: string -> Parsed, s: ExecState, d: string, code: int)
    requires Poisoned(parse, s.carry) && !s.errored
    ensures Run(parse, s, [StdoutData(d), Close(code)]) ==
      Outcome(s.(carry := s.carry + Without(d, IsNewline), settled := Settle(s.settled, Resolved)), Flush(s.held))
  {
    PoisonedChunk(parse, s.carry, d);
    var o := Handle(parse, s, StdoutData(d));
    assert o == Outcome(s.(carry := s.carry + Without(d, IsNewline)), []);
    assert [StdoutData(d), Close(code)][1..] == [Close(code)];
    RunFirst(parse, s, [StdoutData(d), Close(code)]);
    RunFirst(parse, o.state, [Close(code)]);
    assert Run(parse, o.state, [Close(code)]).out == Flush(s.held) + [];
  }

  /** An error always settles the run: once `errored` is set, the run has
      been rejected, and every later event keeps it so. */
  predicate ErrorSettled(s: ExecState)
  {
    s.errored ==> !s.settled.Pending?
  }

  lemma {:induction false} RunKeepsErrorSettled(parse: string -> Parsed, s: ExecState, evs: seq<ChildEvent>)
    requires ErrorSettled(s)
    ensures ErrorSettled(Run(parse, s, evs).state)
    decreases |evs|
  {
    if |evs| > 0 {
      RunFirst(parse, s, evs);
      RunKeepsErrorSettled(parse, Handle(parse, s, evs[0]).state, evs[1..]);
    }
  }

  /** Whatever came before, a run whose last event is the close event has
      settled: resolved by the close, or rejected by an earlier error. */
  lemma CloseSettles(parse: string -> Parsed, s: ExecState, evs: seq<ChildEvent>, code: int)
    requires ErrorSettled(s)
    ensures !Run(parse, s, evs + [Close(code)]).state.settled.Pending?
  {
    RunKeepsErrorSettled(parse, s, evs);
    RunAppend(parse, s, evs, [Close(code)]);
    var x := Run(parse, s, evs);
    RunFirst(parse, x.state, [Close(code)]);
  }

  /** Standard-output chunks alone: the run emits what the decoder makes of
      the chunks in arrival order, keeps its carry, and changes nothing else. */
  lemma {:induction false} StdoutChunksDecode(parse: string -> Parsed, s: ExecState, cs: seq<string>)
    ensures
      var d := ReportAll(parse, s.carry, cs);
      Run(parse, s, StdoutEvents(cs)) == Outcome(s.(carry := d.carry), d.out)
    decreases |cs|
  {
    if |cs| > 0 {
      var dec := Report(parse, s.carry, cs[0]);
      var s' := s.(carry := dec.carry);
      assert StdoutEvents(cs)[1..] == StdoutEvents(cs[1..]);
      RunFirst(parse, s, StdoutEvents(cs));
      StdoutChunksDecode(parse, s', cs[1..]);
    }
  }

  /** No event of `evs` is a spawn error. */
  predicate NoSpawnError(evs: seq<ChildEvent>)
  {
    forall i :: 0 <= i < |evs| ==> !evs[i].SpawnError?
  }

  /** Without a spawn error a run is never errored and never rejected: the
      child's streams and its close, with any exit code, cannot fail it. */
  lemma {:induction false} RunWithoutSpawnError(parse: string -> Parsed, s: ExecState, evs: seq<ChildEvent>)
    requires !s.errored && !s.settled.Rejected?
    requires NoSpawnError(evs)
    ensures !Run(parse, s, evs).state.errored && !Run(parse, s, evs).state.settled.Rejected?
    decreases |evs|
  {
    if |evs| > 0 {
      RunFirst(parse, s, evs);
      assert !evs[0].SpawnError?;
      RunWithoutSpawnError(parse, Handle(parse, s, evs[0]).state, evs[1..]);
    }
  }
}

=== FILE: options.dfy ===
/** The options-file sanitiser of the runner (`config`): the file text is
    tokenised, the tokens are folded with a skip counter over the two arity
    tables, and only the prefix covered by the last flag's arity survives. */
module OptionsFile {
  import opened Strings
  import opened Wrappers

  /** Flags that would fight the injected reporter arguments, with the number
      of positions each occupies on the command line (the flag included). */
  const BadOpts: map<string, nat> := map[
    "--opts" := 2,
    "--recursive" := 1,
    "--reporter-options" := 2,
    "--reporter" := 2,
    "--watch-extensions" := 2,
    "--watch" := 1,
    "-O" := 2,
    "-R" := 2,
    "-w" := 1
  ]

  /** Flags passed through, with the number of positions each occupies. */
  const OkOpts: map<string, nat> := map[
    "--compilers" := 2,
    "--globals" := 2,
    "--fgrep" := 2,
    "--grep" := 2,
    "--require" := 2,
    "--slow" := 2,
    "--timeout" := 2,
    "--ui" := 2,
    "-f" := 2,
    "-g" := 2,
    "-r" := 2,
    "-s" := 2,
    "-t" := 2,
    "-u" := 2
  ]

  /** A token counts as a flag when it starts with a dash. */
  predicate IsFlag(opt: string)
  {
    "-" <= opt
  }

  /** How many positions an accepted flag claims, itself included: its entry
      in the accepted table, or one for a flag the table does not know. */
  function FlagArity(opt: string): nat
  {
    if opt in OkOpts then OkOpts[opt] else 1
  }

  function Min(a: nat, b: nat): nat
  {
    if a <= b then a else b
  }

  /* ---------------- Tokenising the file text ---------------- */

  /** Escaping: a backslash followed by any whitespace character becomes the
      placeholder `%20`, scanning left to right without overlaps. */
  function EscapeWhitespace(s: string): string
    decreases |s|
  {
    if |s| == 0 then ""
    else if |s| >= 2 && s[0] == '\\' && IsJsSpace(s[1]) then "%20" + EscapeWhitespace(s[2..])
    else [s[0]] + EscapeWhitespace(s[1..])
  }

  /** Unescaping: every placeholder `%20`, whether it came from an escape or
      was written literally, becomes a single space. */
  function DecodeSpaces(s: string): (r: string)
    ensures |s| > 0 <==> |r| > 0
    ensures |r| <= |s|
    decreases |s|
  {
    if |s| == 0 then ""
    else if |s| >= 3 && s[..3] == "%20" then " " + DecodeSpaces(s[3..])
    else [s[0]] + DecodeSpaces(s[1..])
  }

  /** The non-empty pieces, in order: empty pieces are falsy and dropped. */
  function NonEmpty(ps: seq<string>): (r: seq<string>)
    ensures forall i :: 0 <= i < |r| ==> |r[i]| > 0
    ensures |r| <= |ps|
  {
    if |ps| == 0 then []
    else if |ps[0]| == 0 then NonEmpty(ps[1..])
    else [ps[0]] + NonEmpty(ps[1..])
  }

  function DecodeAll(ps: seq<string>): (r: seq<string>)
    ensures |r| == |ps|
    ensures forall i :: 0 <= i < |ps| ==> r[i] == DecodeSpaces(ps[i])
  {
    if |ps| == 0 then [] else [DecodeSpaces(ps[0])] + DecodeAll(ps[1..])
  }

  /** The tokens of an options file, in file order. */
  function Tokens(text: string): (r: seq<string>)
    ensures forall i :: 0 <= i < |r| ==> |r[i]| > 0
    ensures |r| <= CountWhere(EscapeWhitespace(text), IsJsSpace) + 1
  {
    DecodeAll(NonEmpty(Split(EscapeWhitespace(text), IsJsSpace)))
  }

  /* ---------------- The fold ---------------- */

  /** The accumulator of the fold: tokens kept so far, how many more tokens a
      disallowed flag still swallows, and the length of the safe prefix. */
  datatype Memo = Memo(opts: seq<string>, skip: nat, last: nat)

  const Start: Memo := Memo([], 0, 0)

  /** One step of the fold. A pending skip, or else the token's own entry in
      the disallowed table, drops the token; otherwise it is kept and, if it is
      a flag, the safe prefix is moved to the end of the flag's arity window. */
  function Step(m: Memo, opt: string): Memo
  {
    var skip := if m.skip != 0 then m.skip else if opt in BadOpts then BadOpts[opt] else 0;
    if skip != 0 then m.(skip := skip - 1)
    else Memo(m.opts + [opt], 0, if IsFlag(opt) then |m.opts| + FlagArity(opt) else m.last)
  }

  /** The fold over the tokens, from the first to the last. */
  function Fold(m: Memo, toks: seq<string>): Memo
    decreases |toks|
  {
    if |toks| == 0 then m else Fold(Step(m, toks[0]), toks[1..])
  }

  /** The kept tokens cut at the safe prefix; a prefix longer than the list
      keeps the whole list. */
  function Sanitise(toks: seq<string>): (r: seq<string>)
    ensures r == Window(Keep(toks))
    ensures forall i :: 0 <= i < |r| ==> r[i] !in BadOpts
  {
    var m := Fold(Start, toks);
    FoldKeeps(Start, toks);
    FoldTracksLastFlag(Start, toks);
    KeepHasNoBadFlag(toks);
    assert toks[Min(0, |toks|)..] == toks;
    assert [] + Keep(toks) == Keep(toks);
    assert Start.last == LastMark(Start.opts);
    m.opts[..Min(m.last, |m.opts|)]
  }

  /** The sanitised arguments of an options file's text. */
  function Options(text: string): seq<string>
  {
    Sanitise(Tokens(text))
  }

  /** `config`: the working directory paired with the sanitised arguments; an
      unreadable options file (`None`) gives no arguments at all. */
  function Config<P>(cwd: P, file: Option<string>): (r: (P, seq<string>))
    ensures r.0 == cwd
    ensures file.None? ==> r.1 == []
    ensures file.Some? ==> r.1 == Window(Keep(Tokens(file.value)))
    ensures forall i :: 0 <= i < |r.1| ==> r.1[i] !in BadOpts
  {
    match file
    case None => (cwd, [])
    case Some(text) => (cwd, Options(text))
  }

  /* ---------------- An independent reference for the fold ---------------- */

  /** The tokens that survive the disallowed table, read front to back: a
      disallowed flag of arity N removes itself and the next N - 1 tokens. */
  function Keep(toks: seq<string>): seq<string>
    decreases |toks|
  {
    if |toks| == 0 then []
    else if toks[0] in BadOpts then Keep(toks[Min(BadOpts[toks[0]], |toks|)..])
    else [toks[0]] + Keep(toks[1..])
  }

  /** The end of the arity window of the last flag in `ks`, or 0 when `ks`
      holds no flag. */
  function LastMark(ks: seq<string>): nat
    decreases |ks|
  {
    if |ks| == 0 then 0
    else if IsFlag(ks[|ks| - 1]) then |ks| - 1 + FlagArity(ks[|ks| - 1])
    else LastMark(ks[..|ks| - 1])
  }

  /** The kept tokens up to the end of the last flag's window. */
  function Window(ks: seq<string>): seq<string>
  {
    ks[..Min(LastMark(ks), |ks|)]
  }

  /* ---------------- Lemmas ---------------- */

  /** Folding over a concatenation folds over the parts in turn. */
  lemma {:induction false} FoldAppend(m: Memo, a: seq<string>, b: seq<string>)
    ensures Fold(m, a + b) == Fold(Fold(m, a), b)
    decreases |a|
  {
    if |a| == 0 {
      assert a + b == b;
    } else {
      assert (a + b)[0] == a[0] && (a + b)[1..] == a[1..] + b;
      FoldAppend(Step(m, a[0]), a[1..], b);
    }
  }

  /** The fold keeps exactly the tokens of the reference, after whatever a
      pending skip still swallows. */
  lemma {:induction false} FoldKeeps(m: Memo, toks: seq<string>)
    ensures Fold(m, toks).opts == m.opts + Keep(toks[Min(m.skip, |toks|)..])
    decreases |toks|
  {
    if |toks| == 0 {
      assert m.opts + [] == m.opts;
    } else {
      var t := toks[0];
      var m' := Step(m, t);
      FoldKeeps(m', toks[1..]);
      if m.skip != 0 {
        assert toks[1..][Min(m'.skip, |toks| - 1)..] == toks[Min(m.skip, |toks|)..];
      } else if t in BadOpts {
        assert m'.skip == BadOpts[t] - 1;
        assert toks[1..][Min(m'.skip, |toks| - 1)..] == toks[Min(BadOpts[t], |toks|)..];
        assert toks[Min(m.skip, |toks|)..] == toks;
      } else {
        assert toks[Min(m.skip, |toks|)..] == toks;
        assert m'.opts + Keep(toks[1..]) == m.opts + ([t] + Keep(toks[1..]));
      }
    }
  }

  /** `last` always equals the end of the arity window of the last kept flag. */
  lemma {:induction false} FoldTracksLastFlag(m: Memo, toks: seq<string>)
    requires m.last == LastMark(m.opts)
    ensures Fold(m, toks).last == LastMark(Fold(m, toks).opts)
    decreases |toks|
  {
    if |toks| > 0 {
      var m' := Step(m, toks[0]);
      if m'.opts != m.opts {
        assert m'.opts == m.opts + [toks[0]];
        assert m'.opts[..|m'.opts| - 1] == m.opts;
      }
      FoldTracksLastFlag(m', toks[1..]);
    }
  }

  /** No disallowed flag survives the reference filter. */
  lemma {:induction false} KeepHasNoBadFlag(toks: seq<string>)
    ensures forall i :: 0 <= i < |Keep(toks)| ==> Keep(toks)[i] !in BadOpts
    decreases |toks|
  {
    if |toks| > 0 {
      if toks[0] in BadOpts {
        KeepHasNoBadFlag(toks[Min(BadOpts[toks[0]], |toks|)..]);
      } else {
        KeepHasNoBadFlag(toks[1..]);
      }
    }
  }

  /** A pending skip swallows tokens one by one and touches nothing else. */
  lemma {:induction false} SkipSwallows(m: Memo, vals: seq<string>)
    requires |vals| <= m.skip
    ensures Fold(m, vals) == m.(skip := m.skip - |vals|)
    decreases |vals|
  {
    if |vals| > 0 {
      SkipSwallows(m.(skip := m.skip - 1), vals[1..]);
    }
  }

  /** A disallowed flag of arity N, met when no skip is pending, drops itself
      and the next N - 1 tokens whatever they are, and when fewer follow it
      drops all of them; the kept list and the safe prefix are untouched. */
  lemma BadFlagDropsItsValues(m: Memo, flag: string, vals: seq<string>)
    requires m.skip == 0 && flag in BadOpts
    requires |vals| <= BadOpts[flag] - 1
    ensures Fold(m, [flag] + vals) == m.(skip := BadOpts[flag] - 1 - |vals|)
    ensures |vals| == BadOpts[flag] - 1 ==> Fold(m, [flag] + vals) == m
  {
    FoldAppend(m, [flag], vals);
    SkipSwallows(Step(m, flag), vals);
  }

  /** The safe prefix never shrinks. Every table arity is at most 2, so a new
      flag's window always reaches at least as far as the previous one. */
  lemma {:induction false} LastNeverDecreases(m: Memo, toks: seq<string>)
    requires m.last <= |m.opts| + 1
    ensures m.last <= Fold(m, toks).last
    ensures Fold(m, toks).last <= |Fold(m, toks).opts| + 1
    decreases |toks|
  {
    if |toks| > 0 {
      var t := toks[0];
      assert FlagArity(t) <= 2;
      LastNeverDecreases(Step(m, t), toks[1..]);
    }
  }

  /** The escape placeholder leaves text without backslashes alone. */
  lemma {:induction false} EscapeOfPlain(s: string)
    requires '\\' !in s
    ensures EscapeWhitespace(s) == s
    decreases |s|
  {
    if |s| > 0 {
      EscapeOfPlain(s[1..]);
      assert s == [s[0]] + s[1..];
    }
  }

  /** Decoding leaves text without `%` alone. */
  lemma {:induction false} DecodeOfPlain(s: string)
    requires '%' !in s
    ensures DecodeSpaces(s) == s
    decreases |s|
  {
    if |s| > 0 {
      assert s[0] != '%';
      DecodeOfPlain(s[1..]);
      assert s == [s[0]] + s[1..];
    }
  }

  lemma {:induction false} EscapeAfterPlain(a: string, b: string)
    requires '\\' !in a
    ensures EscapeWhitespace(a + b) == a + EscapeWhitespace(b)
    decreases |a|
  {
    if |a| == 0 {
      assert a + b == b;
    } else {
      assert (a + b)[0] == a[0] && (a + b)[1..] == a[1..] + b;
      EscapeAfterPlain(a[1..], b);
      assert a == [a[0]] + a[1..];
    }
  }

  lemma {:induction false} DecodeAfterPlain(a: string, b: string)
    requires '%' !in a
    ensures DecodeSpaces(a + b) == a + DecodeSpaces(b)
    decreases |a|
  {
    if |a| == 0 {
      assert a + b == b;
    } else {
      assert a[0] != '%';
      assert (a + b)[0] == a[0] && (a + b)[1..] == a[1..] + b;
      DecodeAfterPlain(a[1..], b);
      assert a == [a[0]] + a[1..];
    }
  }

  /** A word is plain when it can stand as a token on its own: non-empty,
      without whitespace, and without the two characters the escaping reads. */
  predicate PlainWord(w: string)
  {
    |w| > 0 && NoneSatisfy(w, IsJsSpace) && '\\' !in w && '%' !in w
  }

  lemma {:induction false} JoinOfPlainHasNoBackslash(ws: seq<string>)
    requires |ws| >= 1
    requires forall i :: 0 <= i < |ws| ==> PlainWord(ws[i])
    ensures '\\' !in Join(ws, ' ')
    decreases |ws|
  {
    if |ws| > 1 {
      JoinOfPlainHasNoBackslash(ws[1..]);
    }
  }

  lemma {:induction false} NonEmptyOfNonEmpty(ps: seq<string>)
    requires forall i :: 0 <= i < |ps| ==> |ps[i]| > 0
    ensures NonEmpty(ps) == ps
    decreases |ps|
  {
    if |ps| > 0 {
      NonEmptyOfNonEmpty(ps[1..]);
    }
  }

  /** Tokenising undoes writing plain words separated by single spaces. */
  lemma TokensOfJoinedWords(ws: seq<string>)
    requires |ws| >= 1
    requires forall i :: 0 <= i < |ws| ==> PlainWord(ws[i])
    ensures Tokens(Join(ws, ' ')) == ws
  {
    var text := Join(ws, ' ');
    JoinOfPlainHasNoBackslash(ws);
    EscapeOfPlain(text);
    SplitOfJoin(ws, ' ', IsJsSpace);
    NonEmptyOfNonEmpty(ws);
    forall i | 0 <= i < |ws| ensures DecodeSpaces(ws[i]) == ws[i] {
      DecodeOfPlain(ws[i]);
    }
  }

  /** A backslash before a whitespace character glues the two words around it
      into one token, with a single space in place of the escape. */
  lemma EscapedWhitespaceStaysInToken(a: string, w: char, b: string)
    requires PlainWord(a) && PlainWord(b) && IsJsSpace(w)
    ensures Tokens(a + ['\\', w] + b) == [a + " " + b]
  {
    var text := a + ['\\', w] + b;
    assert text == a + (['\\', w] + b);
    EscapeAfterPlain(a, ['\\', w] + b);
    assert (['\\', w] + b)[2..] == b;
    EscapeOfPlain(b);
    var e := a + "%20" + b;
    assert EscapeWhitespace(text) == e;
    assert NoneSatisfy(e, IsJsSpace) by {
      forall j | 0 <= j < |e| ensures !IsJsSpace(e[j]) {
        if j < |a| {
          assert e[j] == a[j];
        } else if j >= |a| + 3 {
          assert e[j] == b[j - |a| - 3];
        }
      }
    }
    SplitOfPlain(e, IsJsSpace);
    assert NonEmpty([e]) == [e];
    assert e == a + ("%20" + b);
    DecodeAfterPlain(a, "%20" + b);
    assert ("%20" + b)[..3] == "%20" && ("%20" + b)[3..] == b;
    DecodeOfPlain(b);
    assert DecodeSpaces(e) == a + " " + b;
    assert DecodeAll([e]) == [DecodeSpaces(e)];
  }

  /** Escaping never reaches across a boundary that does not follow a
      backslash: the two sides are escaped separately. */
  lemma {:induction false} EscapeAppend(x: string, t: string)
    requires |x| == 0 || x[|x| - 1] != '\\'
    ensures EscapeWhitespace(x + t) == EscapeWhitespace(x) + EscapeWhitespace(t)
    decreases |x|
  {
    if |x| == 0 {
      assert x + t == t;
    } else if |x| >= 2 && x[0] == '\\' && IsJsSpace(x[1]) {
      assert (x + t)[0] == x[0] && (x + t)[1] == x[1] && (x + t)[2..] == x[2..] + t;
      EscapeAppend(x[2..], t);
    } else {
      assert (x + t)[0] == x[0] && (x + t)[1..] == x[1..] + t;
      assert |x| >= 2 ==> (x + t)[1] == x[1];
      EscapeAppend(x[1..], t);
    }
  }

  /** A whitespace character not preceded by a backslash is never part of an
      escape: escaping works on the two sides of it separately. */
  lemma EscapeAtWhitespace(x: string, w: char, y: string)
    requires IsJsSpace(w)
    requires |x| == 0 || x[|x| - 1] != '\\'
    ensures EscapeWhitespace(x + [w] + y) == EscapeWhitespace(x) + [w] + EscapeWhitespace(y)
  {
    EscapeAppend(x, [w] + y);
    assert x + [w] + y == x + ([w] + y);
    EscapeAfterPlain([w], y);
  }

  lemma {:induction false} NonEmptyAppend(a: seq<string>, b: seq<string>)
    ensures NonEmpty(a + b) == NonEmpty(a) + NonEmpty(b)
    decreases |a|
  {
    if |a| == 0 {
      assert a + b == b;
    } else {
      assert (a + b)[0] == a[0] && (a + b)[1..] == a[1..] + b;
      NonEmptyAppend(a[1..], b);
    }
  }

  lemma {:induction false} DecodeAllAppend(a: seq<string>, b: seq<string>)
    ensures DecodeAll(a + b) == DecodeAll(a) + DecodeAll(b)
    decreases |a|
  {
    if |a| == 0 {
      assert a + b == b;
    } else {
      assert (a + b)[0] == a[0] && (a + b)[1..] == a[1..] + b;
      DecodeAllAppend(a[1..], b);
    }
  }

  /** Unescaped whitespace separates tokens for good: the tokens of the whole
      file are the tokens of the text before it followed by those of the text
      after it, so an escape elsewhere only ever joins words on its own side. */
  lemma EscapeDoesNotCrossWhitespace(x: string, w: char, y: string)
    requires IsJsSpace(w)
    requires |x| == 0 || x[|x| - 1] != '\\'
    ensures Tokens(x + [w] + y) == Tokens(x) + Tokens(y)
  {
    var ex, ey := EscapeWhitespace(x), EscapeWhitespace(y);
    EscapeAtWhitespace(x, w, y);
    SplitAtSeparator(ex, w, ey, IsJsSpace);
    var px, py := Split(ex, IsJsSpace), Split(ey, IsJsSpace);
    NonEmptyAppend(px, py);
    DecodeAllAppend(NonEmpty(px), NonEmpty(py));
  }

  /* ---------------- Worked examples ---------------- */

  /** `--timeout 5000 --watch`: the disallowed flag goes, the allowed flag and
      its value stay. */
  lemma ExampleTimeoutThenWatch()
    ensures Options("--timeout 5000 --watch") == ["--timeout", "5000"]
  {
    var ws := ["--timeout", "5000", "--watch"];
    ExampleWords(ws);
    TokensOfJoinedWords(ws);
    ExampleWatchDropped();
  }

  lemma ExampleWords(ws: seq<string>)
    requires ws == ["--timeout", "5000", "--watch"]
    ensures forall i :: 0 <= i < |ws| ==> PlainWord(ws[i])
    ensures Join(ws, ' ') == "--timeout 5000 --watch"
  {
    PrintableIsPlain(ws[0]);
    PrintableIsPlain(ws[1]);
    PrintableIsPlain(ws[2]);
    ExampleJoin(ws);
  }

  lemma ExampleJoin(ws: seq<string>)
    requires ws == ["--timeout", "5000", "--watch"]
    ensures Join(ws, ' ') == "--timeout 5000 --watch"
  {
    assert ws[1..][1..] == ["--watch"];
    assert Join(ws[1..][1..], ' ') == "--watch";
    assert Join(ws[1..], ' ') == "5000" + " " + "--watch";
  }

  /** A non-empty word of ASCII letters, digits and dashes is plain. */
  lemma PrintableIsPlain(w: string)
    requires |w| > 0
    requires forall j :: 0 <= j < |w| ==> w[j] == '-' || ('0' <= w[j] <= '9') || ('a' <= w[j] <= 'z')
    ensures PlainWord(w)
  {
  }

  lemma ExampleWatchDropped()
    ensures Sanitise(["--timeout", "5000", "--watch"]) == ["--timeout", "5000"]
  {
    var ws := ["--timeout", "5000", "--watch"];
    var m1 := Step(Start, "--timeout");
    assert m1 == Memo(["--timeout"], 0, 2);
    var m2 := Step(m1, "5000");
    assert m2 == Memo(["--timeout", "5000"], 0, 2);
    assert Step(m2, "--watch") == m2;
    assert Fold(Start, ws) == m2 by {
      assert ws[1..][1..][1..] == [];
    }
  }

  /** `--timeout 5000 foo`: a positional token after the last flag's window is
      cut off. */
  lemma ExampleTrailingPositional()
    ensures Sanitise(["--timeout", "5000", "foo"]) == ["--timeout", "5000"]
  {
    var ws := ["--timeout", "5000", "foo"];
    var m1 := Step(Start, "--timeout");
    assert m1 == Memo(["--timeout"], 0, 2);
    var m2 := Step(m1, "5000");
    assert m2 == Memo(["--timeout", "5000"], 0, 2);
    assert "foo"[0] != '-' && !IsFlag("foo");
    var m3 := Step(m2, "foo");
    assert m3 == Memo(["--timeout", "5000", "foo"], 0, 2);
    assert Fold(Start, ws) == m3 by {
      assert ws[1..][1..][1..] == [];
    }
    assert m3.opts[..Min(m3.last, |m3.opts|)] == ["--timeout", "5000"];
  }

  /** A lone trailing allowed flag is kept: its window reaches past the end of
      the list and `slice` clamps. */
  lemma ExampleLoneTrailingFlag()
    ensures Sanitise(["--timeout"]) == ["--timeout"]
  {
  }
}

=== FILE: protocol.dfy ===
/** The wire contract between the reporter running inside the test framework
    and the runner's decoder: the messages and the records they carry. */
module Protocol {

  /** The status codes of the test-runner UI. */
  datatype Status = Passed | Failed | Skipped | Fatal | Timeout
  {
    /** The numeric code the UI expects on the wire. */
    function Code(): int
    {
      match this
      case Passed => 1
      case Failed => 2
      case Skipped => 3
      case Fatal => 4
      case Timeout => 5
    }
  }

  /** Identifies a test before it runs. */
  datatype TestSummary = TestSummary(className: string, fileName: string, id: string, name: string)

  /** The result of one finished test. The duration is kept in integer
      milliseconds; the wire carries it divided by 1000 as a float. */
  datatype TestInfo = TestInfo(
    details: string,
    durationMillis: nat,
    name: string,
    numAssertions: nat,
    numFailures: nat,
    numMethods: nat,
    numSkipped: nat,
    status: Status,
    testJsonId: string)

  /** One message delivered to the UI callback. `OtherKind` is any other
      object with a `kind` field, which the decoder forwards unchanged. */
  datatype Message =
    | Start
    | Summary(summaryInfo: seq<TestSummary>)
    | RunTest(testInfo: TestInfo)
    | Stderr(data: string)
    | Error(error: string)
    | OtherKind(kind: string)

  lemma CodesAreDistinct(s: Status, t: Status)
    ensures s.Code() == t.Code() <==> s == t
    ensures 1 <= s.Code() <= 5
  {
  }
}

=== FILE: reporter.dfy ===
/** The reporter that runs inside the test framework: the mapping from a
    finished test to the records of the wire contract, and the order in which
    it writes its messages. */
module Reporter {
  import opened Wrappers
  import opened Protocol

  /** What the reporter reads of a test. `state` is absent for a test that
      never ran; `err` holds the error's text when there is one; `duration`
      is in milliseconds and may be absent. */
  datatype Test = Test(
    state: Option<string>,
    timedOut: bool,
    err: Option<string>,
    duration: Option<nat>,
    file: string,
    fullTitle: string)

  /** `testStatus`: passed, failed (split by the timeout flag), and every
      other state counts as skipped. */
  function TestStatus(t: Test): (s: Status)
    ensures s != Fatal
    ensures s == Passed <==> t.state == Some("passed")
    ensures s == Timeout <==> t.state == Some("failed") && t.timedOut
    ensures s == Failed <==> t.state == Some("failed") && !t.timedOut
    ensures s == Skipped <==> t.state != Some("passed") && t.state != Some("failed")
  {
    if t.state == Some("passed") then Passed
    else if t.state == Some("failed") then (if t.timedOut then Timeout else Failed)
    else Skipped
  }

  /** `testInfo`: the result record of one finished test. */
  function TestInfoOf(t: Test): (r: TestInfo)
    ensures r.status == TestStatus(t)
    ensures r.numFailures == 1 <==> t.state == Some("failed")
    ensures r.numSkipped == 1 <==> t.state != Some("passed") && t.state != Some("failed")
    ensures r.numFailures <= 1 && r.numSkipped <= 1 && r.numFailures + r.numSkipped <= 1
    ensures r.status == Passed ==> r.numFailures == 0 && r.numSkipped == 0
    ensures r.numAssertions == 1 && r.numMethods == 1
    ensures t.err.None? ==> r.details == ""
    ensures t.err.Some? ==> r.details == t.err.value
    ensures r.name == t.fullTitle && r.testJsonId == t.fullTitle
    ensures r.durationMillis == t.duration.GetOr(0)
  {
    var s := TestStatus(t);
    TestInfo(
      details := match t.err case Some(e) => e case None => "",
      durationMillis := match t.duration case Some(d) => d case None => 0,
      name := t.fullTitle,
      numAssertions := 1,
      numFailures := if s == Failed || s == Timeout then 1 else 0,
      numMethods := 1,
      numSkipped := if s == Skipped then 1 else 0,
      status := s,
      testJsonId := t.fullTitle)
  }

  /** `testSummary`: class name, id and name all carry the full title. */
  function TestSummaryOf(t: Test): (r: TestSummary)
    ensures r.className == r.id == r.name == t.fullTitle
    ensures r.fileName == t.file
  {
    TestSummary(t.fullTitle, t.file, t.fullTitle, t.fullTitle)
  }

  /** `summaries`: one summary per test, in the order the suite enumerates
      them. */
  function Summaries(suite: seq<Test>): (r: seq<TestSummary>)
    ensures |r| == |suite|
    ensures forall i :: 0 <= i < |suite| ==>
      r[i].className == r[i].id == r[i].name == suite[i].fullTitle && r[i].fileName == suite[i].file
  {
    if |suite| == 0 then [] else [TestSummaryOf(suite[0])] + Summaries(suite[1..])
  }

  /** The summary announced for a test and the result later reported for it
      carry the same id, so the UI can match the two. */
  lemma SummaryMatchesResult(suite: seq<Test>, i: nat)
    requires i < |suite|
    ensures Summaries(suite)[i].id == TestInfoOf(suite[i]).testJsonId
    ensures Summaries(suite)[i].name == TestInfoOf(suite[i]).name
  {
  }

  /** The test framework's lifecycle events the reporter listens to. */
  datatype RunnerEvent = RunStart | TestEnd(test: Test)

  /** The handlers attached in the constructor: `start` and `test end`. */
  function Handlers(evs: seq<RunnerEvent>): (r: seq<Message>)
    ensures |r| == |evs|
    ensures forall i :: 0 <= i < |evs| ==> (r[i] == Start <==> evs[i] == RunStart)
    ensures forall i :: 0 <= i < |evs| && evs[i].TestEnd? ==> r[i] == RunTest(TestInfoOf(evs[i].test))
  {
    if |evs| == 0 then []
    else
      var m := match evs[0] case RunStart => Start case TestEnd(t) => RunTest(TestInfoOf(t));
      [m] + Handlers(evs[1..])
  }

  /** Everything the reporter writes over a run: the summary, written while
      the reporter is still being constructed, then one message per event. */
  function Emissions(suite: seq<Test>, evs: seq<RunnerEvent>): (r: seq<Message>)
    ensures |r| == |evs| + 1
    ensures r[0] == Summary(Summaries(suite))
    ensures forall i :: 0 <= i < |r| ==> (r[i].Summary? <==> i == 0)
    ensures forall i :: 0 < i < |r| ==> r[i].Start? || r[i].RunTest?
  {
    [Summary(Summaries(suite))] + Handlers(evs)
  }
}

=== FILE: root.dfy ===
/** The project-root locator (`cwd`): starting from the directory of the test
    file, look for the sentinel file and walk up one directory at a time until
    it is found or the filesystem root has been tried. */
module ProjectRoot {
  import opened Wrappers

  /** A normalised absolute path as its segments; `[]` is the root. */
  type Path = seq<string>

  /** `path.dirname`: drop the last segment; the root is its own parent. */
  function Dirname(p: Path): Path
  {
    if |p| == 0 then p else p[..|p| - 1]
  }

  /** True when the file `dir/sentinel` exists in the filesystem `fs`. */
  predicate HasSentinel(fs: set<Path>, sentinel: Path, dir: Path)
  {
    dir + sentinel in fs
  }

  /** `cwd(dir)`: the nearest ancestor-or-self of `dir` holding the sentinel,
      or the failed lookup of the sentinel at the root. */
  function Locate(fs: set<Path>, sentinel: Path, dir: Path): (r: Result<Path, Path>)
    ensures r.Ok? ==> r.value <= dir && HasSentinel(fs, sentinel, r.value)
    ensures r.Ok? ==> forall k :: |r.value| < k <= |dir| ==> !HasSentinel(fs, sentinel, dir[..k])
    ensures r.Err? <==> forall k :: 0 <= k <= |dir| ==> !HasSentinel(fs, sentinel, dir[..k])
    ensures r.Err? ==> r.error == sentinel
    decreases |dir|
  {
    if HasSentinel(fs, sentinel, dir) then
      assert dir[..|dir|] == dir;
      Ok(dir)
    else if Dirname(dir) == dir then
      assert dir == [] && dir[..0] == dir;
      Err(dir + sentinel)
    else
      var up := Dirname(dir);
      var r := Locate(fs, sentinel, up);
      assert forall k :: 0 <= k <= |up| ==> up[..k] == dir[..k];
      assert dir[..|dir|] == dir;
      r
  }

  /** `cwd()` with its default: the walk starts at the test file's directory,
      so the root found is a proper ancestor of the file. */
  function Cwd(fs: set<Path>, sentinel: Path, uri: Path): (r: Result<Path, Path>)
    ensures r.Ok? ==> r.value <= uri && (|uri| > 0 ==> |r.value| < |uri|)
    ensures r.Ok? ==> HasSentinel(fs, sentinel, r.value)
    ensures r.Ok? ==> forall k :: |r.value| < k < |uri| ==> !HasSentinel(fs, sentinel, uri[..k])
    ensures r.Err? <==> forall k :: 0 <= k <= |Dirname(uri)| ==> !HasSentinel(fs, sentinel, Dirname(uri)[..k])
    ensures |uri| > 0 ==> (r.Err? <==> forall k :: 0 <= k < |uri| ==> !HasSentinel(fs, sentinel, uri[..k]))
  {
    var dir := Dirname(uri);
    assert forall k :: 0 <= k <= |dir| ==> dir[..k] == uri[..k];
    var r := Locate(fs, sentinel, dir);
    if r.Ok? then
      assert r.value == dir[..|r.value|];
      r
    else
      r
  }

  /* ---------------- An independent reference for the walk ---------------- */

  /** Scan the ancestors from the root downwards, remembering the last one
      that holds the sentinel. */
  function ScanDown(fs: set<Path>, sentinel: Path, dir: Path, k: nat, best: Option<Path>): Option<Path>
    requires k <= |dir| + 1
    decreases |dir| + 1 - k
  {
    if k > |dir| then best
    else ScanDown(fs, sentinel, dir, k + 1, if HasSentinel(fs, sentinel, dir[..k]) then Some(dir[..k]) else best)
  }

  lemma {:induction false} ScanDownMiss(fs: set<Path>, sentinel: Path, dir: Path, k: nat, best: Option<Path>)
    requires k <= |dir| + 1
    requires forall j :: k <= j <= |dir| ==> !HasSentinel(fs, sentinel, dir[..j])
    ensures ScanDown(fs, sentinel, dir, k, best) == best
    decreases |dir| + 1 - k
  {
    if k <= |dir| {
      ScanDownMiss(fs, sentinel, dir, k + 1, best);
    }
  }

  lemma {:induction false} ScanDownHit(fs: set<Path>, sentinel: Path, dir: Path, k: nat, best: Option<Path>, j: nat)
    requires k <= j <= |dir|
    requires HasSentinel(fs, sentinel, dir[..j])
    requires forall i :: j < i <= |dir| ==> !HasSentinel(fs, sentinel, dir[..i])
    ensures ScanDown(fs, sentinel, dir, k, best) == Some(dir[..j])
    decreases |dir| + 1 - k
  {
    var next := if HasSentinel(fs, sentinel, dir[..k]) then Some(dir[..k]) else best;
    if k == j {
      ScanDownMiss(fs, sentinel, dir, k + 1, next);
    } else {
      ScanDownHit(fs, sentinel, dir, k + 1, next, j);
    }
  }

  /** The upward walk finds exactly the deepest ancestor that a downward scan
      from the root would remember last. */
  lemma LocateIsDeepestAncestor(fs: set<Path>, sentinel: Path, dir: Path)
    ensures Locate(fs, sentinel, dir) ==
      match ScanDown(fs, sentinel, dir, 0, None)
      case Some(p) => Ok(p)
      case None => Err(sentinel)
  {
    var r := Locate(fs, sentinel, dir);
    if r.Ok? {
      assert r.value == dir[..|r.value|];
      ScanDownHit(fs, sentinel, dir, 0, None, |r.value|);
    } else {
      ScanDownMiss(fs, sentinel, dir, 0, None);
    }
  }

  /** Locating is insensitive to the starting depth: from any directory below
      the root found, and at or above the start, the same root is found. */
  lemma StartDepthIrrelevant(fs: set<Path>, sentinel: Path, dir: Path, m: nat)
    requires m <= |dir|
    requires Locate(fs, sentinel, dir).Ok?
    requires |Locate(fs, sentinel, dir).value| <= m
    ensures Locate(fs, sentinel, dir[..m]) == Locate(fs, sentinel, dir)
  {
    var root := Locate(fs, sentinel, dir).value;
    var low := dir[..m];
    assert forall k :: 0 <= k <= m ==> low[..k] == dir[..k];
    assert root == dir[..|root|];
    assert low[..|root|] == root;
    var r := Locate(fs, sentinel, low);
    assert r.Ok?;
    var a := |r.value|;
    assert r.value == low[..a] == dir[..a];
  }

  /** The root found is a fixpoint: locating again from it finds itself. */
  lemma RootIsFixpoint(fs: set<Path>, sentinel: Path, dir: Path)
    requires Locate(fs, sentinel, dir).Ok?
    ensures Locate(fs, sentinel, Locate(fs, sentinel, dir).value) == Locate(fs, sentinel, dir)
  {
  }
}

=== FILE: runner.dfy ===
/** One run of the adapter (`run`): locate the project root, read the options
    file there, launch the test framework, and turn any failure along the way
    into a single error message before the completion callback fires. */
module Runner {
  import opened Wrappers
  import opened Protocol
  import opened ProjectRoot
  import opened Decoder
  import opened Exec
  import OptionsFile

  /** What the UI hands the runner: the test file (as given and as path
      segments), the executable, the user's extra arguments, and the options
      file and sentinel file names relative to a directory. */
  datatype Request = Request(
    uri: string,
    uriPath: Path,
    cmd: string,
    args: seq<string>,
    opts: Path,
    sentinel: Path)

  /** The command spawned, where, with which arguments and in which
      environment. */
  datatype Launch = Launch(cmd: string, cwd: Path, argv: seq<string>, env: map<string, string>)

  /** Locating the root, reading the options file there, and building the
      child's arguments. `read` is the
      file system's view of a file's contents, `None` when it cannot be
      read; `parent` is the runner's own environment. */
  function Prepare(fs: set<Path>, read: Path -> Option<string>, parent: map<string, string>, reporter: string,
                   q: Request): (r: Result<Launch, Path>)
    ensures r.Err? <==> forall k :: 0 <= k <= |Dirname(q.uriPath)| ==> !HasSentinel(fs, q.sentinel, Dirname(q.uriPath)[..k])
    ensures r.Err? ==> r.error == q.sentinel
    ensures r.Ok? ==> r.value.cwd <= q.uriPath && HasSentinel(fs, q.sentinel, r.value.cwd)
    ensures r.Ok? ==> Cwd(fs, q.sentinel, q.uriPath) == Ok(r.value.cwd)
    ensures r.Ok? ==> forall k :: |r.value.cwd| < k < |q.uriPath| ==> !HasSentinel(fs, q.sentinel, q.uriPath[..k])
    ensures r.Ok? ==>
      var n := |r.value.argv|;
      && n >= |q.args| + 4
      && r.value.argv[n - |q.args| - 4..] == q.args + ReporterArgs(reporter) + [q.uri]
      && forall i :: 0 <= i < n - |q.args| - 4 ==> r.value.argv[i] !in OptionsFile.BadOpts
    ensures r.Ok? ==>
      r.value.argv[..|r.value.argv| - |q.args| - 4] == OptionsFile.Config(r.value.cwd, read(r.value.cwd + q.opts)).1
    ensures r.Ok? && read(r.value.cwd + q.opts).None? ==> r.value.argv == q.args + ReporterArgs(reporter) + [q.uri]
    ensures r.Ok? ==> r.value.cmd == q.cmd && r.value.env == ChildEnv(parent)
  {
    match Cwd(fs, q.sentinel, q.uriPath)
    case Err(e) => Err(e)
    case Ok(dir) => Ok(LaunchIn(q.cmd, dir, read(dir + q.opts), parent, reporter, q.args, q.uri))
  }

  /** The launch of `cmd` from a located root `dir` whose options file reads
      as `file`: the sanitised options, then the user's arguments, the fixed
      reporter arguments and the test file, in the parent's environment with
      the marker set. */
  function LaunchIn(cmd: string, dir: Path, file: Option<string>, parent: map<string, string>, reporter: string,
                    args: seq<string>, uri: string): (l: Launch)
    ensures l.cmd == cmd && l.cwd == dir
    ensures l.env == ChildEnv(parent)
    ensures
      var n := |l.argv| - |args| - 4;
      && n >= 0
      && l.argv[..n] == OptionsFile.Config(dir, file).1
      && l.argv[n..] == args + ReporterArgs(reporter) + [uri]
      && forall i :: 0 <= i < n ==> l.argv[i] !in OptionsFile.BadOpts
    ensures file.None? ==> l.argv == args + ReporterArgs(reporter) + [uri]
  {
    var c := OptionsFile.Config(dir, file);
    var argv := Argv(c.1, args, reporter, uri);
    assert argv == c.1 + (args + ReporterArgs(reporter) + [uri]);
    assert forall i :: 0 <= i < |c.1| ==> argv[i] == c.1[i];
    Launch(cmd, c.0, argv, ChildEnv(parent))
  }

  /** What the UI sees of a run: the messages in order, and whether the
      completion callback has fired. */
  datatype RunResult = RunResult(messages: seq<Message>, finished: bool)

  /** The end of the chain, where any rejection becomes an error message and
      the completion callback fires: a failed lookup of the root becomes a
      single error and finishes the run without spawning anything; otherwise
      the child's messages come out, followed by one error if its run was
      rejected, and the run finishes once the child's run has settled.
      `describe` gives the text of the failed lookup of the sentinel. */
  function Conclude(prepared: Result<Launch, Path>, child: Outcome, describe: Path -> string): (r: RunResult)
    ensures prepared.Err? ==> r == RunResult([Error(describe(prepared.error))], true)
    ensures prepared.Ok? ==>
      && |child.out| <= |r.messages| <= |child.out| + 1
      && r.messages[..|child.out|] == child.out
      && (r.finished <==> !child.state.settled.Pending?)
      && (|r.messages| == |child.out| + 1 <==> child.state.settled.Rejected?)
      && (child.state.settled.Rejected? ==> r.messages[|child.out|] == Error(child.state.settled.err))
  {
    match prepared
    case Err(e) => RunResult([Error(describe(e))], true)
    case Ok(_) =>
      match child.state.settled
      case Pending => RunResult(child.out, false)
      case Resolved => RunResult(child.out, true)
      case Rejected(err) =>
        assert (child.out + [Error(err)])[..|child.out|] == child.out;
        RunResult(child.out + [Error(err)], true)
  }

  /** `run`: the child's events `evs` are those of the process spawned from
      the prepared launch. Without a root no child is spawned and the run
      ends at once with one error; with one, the run finishes exactly when
      the child's run has settled. */
  function RunAll(fs: set<Path>, read: Path -> Option<string>, parent: map<string, string>, parse: string -> Parsed,
                  reporter: string, describe: Path -> string, q: Request, evs: seq<ChildEvent>): (r: RunResult)
    ensures Cwd(fs, q.sentinel, q.uriPath).Err? ==> r == RunResult([Error(describe(q.sentinel))], true)
    ensures Cwd(fs, q.sentinel, q.uriPath).Ok? ==> (r.finished <==> !Run(parse, Initial, evs).state.settled.Pending?)
  {
    Conclude(Prepare(fs, read, parent, reporter, q), Run(parse, Initial, evs), describe)
  }

  /** A child that closes always ends the run: the completion callback has
      fired whatever events came before the close. */
  lemma CloseFinishesRun(fs: set<Path>, read: Path -> Option<string>, parent: map<string, string>,
                         parse: string -> Parsed, reporter: string, describe: Path -> string, q: Request,
                         evs: seq<ChildEvent>, code: int)
    ensures RunAll(fs, read, parent, parse, reporter, describe, q, evs + [Close(code)]).finished
  {
    CloseSettles(parse, Initial, evs, code);
  }

  /** A child that cannot be spawned: whatever the close event says, the UI
      gets the single error and the run finishes. */
  lemma SpawnFailureReportsOnce(launch: Launch, parse: string -> Parsed, describe: Path -> string, err: string, code: int)
    ensures Conclude(Ok(launch), Run(parse, Initial, [SpawnError(err), Close(code)]), describe) ==
      RunResult([Error(err)], true)
  {
    ErrorThenClose(parse, Initial, err, code);
    assert Flush(Initial.held) == [];
  }

  /** A child that exits without a spawn error finishes the run without an
      error message, whatever its exit code and output: the framework's own
      failures are reported, never raised. */
  lemma ExitCodeNeverFails(launch: Launch, parse: string -> Parsed, describe: Path -> string,
                           evs: seq<ChildEvent>, code: int)
    requires NoSpawnError(evs)
    ensures
      var r := Run(parse, Initial, evs + [Close(code)]);
      Conclude(Ok(launch), r, describe) == RunResult(r.out, true)
  {
    CloseSettles(parse, Initial, evs, code);
    assert NoSpawnError(evs + [Close(code)]) by {
      forall i | 0 <= i < |evs + [Close(code)]| ensures !(evs + [Close(code)])[i].SpawnError? {
        if i < |evs| {
          assert (evs + [Close(code)])[i] == evs[i];
        }
      }
    }
    RunWithoutSpawnError(parse, Initial, evs + [Close(code)]);
  }

  /** A child that only writes to standard error and exits: every line it
      wrote is reported, the unterminated tail once more, and the run
      finishes without an error. */
  lemma StderrOnlyChild(launch: Launch, parse: string -> Parsed, describe: Path -> string, ds: seq<string>, code: int)
    ensures
      var b := PushAll("", ds);
      Conclude(Ok(launch), Run(parse, Initial, StderrEvents(ds) + [Close(code)]), describe) ==
        RunResult(StderrAll(b.lines) + Flush(b.held), true)
  {
    StderrThenClose(parse, ds, code);
  }

}

=== FILE: strings.dfy ===
/** The JavaScript string built-ins the runner relies on: `split` on a
    character class, the `\s` whitespace class, joining and concatenation. */
module Strings {

  /** JavaScript's `\s` class (WhiteSpace and LineTerminator code points). */
  predicate IsJsSpace(c: char)
  {
    var n := c as int;
    || n == 0x09 || n == 0x0A || n == 0x0B || n == 0x0C || n == 0x0D || n == 0x20
    || n == 0xA0 || n == 0x1680 || (0x2000 <= n <= 0x200A) || n == 0x2028 || n == 0x2029
    || n == 0x202F || n == 0x205F || n == 0x3000 || n == 0xFEFF
  }

  predicate IsNewline(c: char)
  {
    c == '\n'
  }

  /** No character of `s` satisfies `p`. */
  predicate NoneSatisfy(s: string, p: char -> bool)
  {
    forall j :: 0 <= j < |s| ==> !p(s[j])
  }

  /** Number of characters of `s` that satisfy `p`. */
  function CountWhere(s: string, p: char -> bool): nat
  {
    if |s| == 0 then 0 else (if p(s[0]) then 1 else 0) + CountWhere(s[1..], p)
  }

  /** The characters of `s` that do not satisfy `p`, in order. */
  function Without(s: string, p: char -> bool): string
  {
    if |s| == 0 then "" else (if p(s[0]) then "" else [s[0]]) + Without(s[1..], p)
  }

  function Concat(ps: seq<string>): string
  {
    if |ps| == 0 then "" else ps[0] + Concat(ps[1..])
  }

  /** Every piece followed by `sep`: the text a writer produces when it ends
      each line with a terminator. */
  function Terminated(ps: seq<string>, sep: char): string
  {
    if |ps| == 0 then "" else ps[0] + [sep] + Terminated(ps[1..], sep)
  }

  /** JavaScript's `Array.prototype.join` with a one-character separator. */
  function Join(ps: seq<string>, sep: char): string
    requires |ps| >= 1
  {
    if |ps| == 1 then ps[0] else ps[0] + [sep] + Join(ps[1..], sep)
  }

  /** JavaScript's `String.prototype.split` on a one-character class: every
      separator character ends a piece, so empty pieces appear between
      adjacent separators and at either end. */
  function Split(s: string, isSep: char -> bool): (r: seq<string>)
    ensures |r| == CountWhere(s, isSep) + 1
    decreases |s|
  {
    if |s| == 0 then [""]
    else
      var rest := Split(s[1..], isSep);
      if isSep(s[0]) then [""] + rest else [[s[0]] + rest[0]] + rest[1..]
  }

  /** No piece of a split holds a separator. */
  lemma {:induction false} SplitPiecesHaveNoSeparator(s: string, p: char -> bool)
    ensures forall i :: 0 <= i < |Split(s, p)| ==> NoneSatisfy(Split(s, p)[i], p)
    decreases |s|
  {
    if |s| > 0 {
      var rest := Split(s[1..], p);
      SplitPiecesHaveNoSeparator(s[1..], p);
      if !p(s[0]) {
        var head := [s[0]] + rest[0];
        assert NoneSatisfy(head, p) by {
          forall j | 1 <= j < |head| ensures !p(head[j]) {
            assert head[j] == rest[0][j - 1];
          }
        }
        assert Split(s, p) == [head] + rest[1..];
      }
    }
  }

  /** Splitting removes the separators and nothing else. */
  lemma {:induction false} SplitDropsOnlySeparators(s: string, p: char -> bool)
    ensures Concat(Split(s, p)) == Without(s, p)
    decreases |s|
  {
    if |s| > 0 {
      var rest := Split(s[1..], p);
      SplitDropsOnlySeparators(s[1..], p);
      if p(s[0]) {
        assert ([""] + rest)[1..] == rest;
      } else {
        var r := [[s[0]] + rest[0]] + rest[1..];
        assert r[1..] == rest[1..];
        assert Concat(rest) == rest[0] + Concat(rest[1..]);
        assert Concat(r) == [s[0]] + rest[0] + Concat(rest[1..]);
      }
    }
  }

  lemma {:induction false} ConcatAppend(a: seq<string>, b: seq<string>)
    ensures Concat(a + b) == Concat(a) + Concat(b)
    decreases |a|
  {
    if |a| == 0 {
      assert a + b == b;
    } else {
      assert (a + b)[1..] == a[1..] + b;
      ConcatAppend(a[1..], b);
    }
  }

  lemma {:induction false} TerminatedAppend(a: seq<string>, b: seq<string>, sep: char)
    ensures Terminated(a + b, sep) == Terminated(a, sep) + Terminated(b, sep)
    decreases |a|
  {
    if |a| == 0 {
      assert a + b == b;
    } else {
      assert (a + b)[1..] == a[1..] + b;
      TerminatedAppend(a[1..], b, sep);
    }
  }

  /** A joined list is its pieces each terminated by `sep`, except the last. */
  lemma {:induction false} JoinAsTerminated(ps: seq<string>, sep: char)
    requires |ps| >= 1
    ensures Join(ps, sep) == Terminated(ps[..|ps| - 1], sep) + ps[|ps| - 1]
    decreases |ps|
  {
    if |ps| > 1 {
      JoinAsTerminated(ps[1..], sep);
      assert ps[1..][..|ps| - 2] == ps[..|ps| - 1][1..];
    }
  }

  /** Text free of separators splits into exactly itself. */
  lemma {:induction false} SplitOfPlain(s: string, p: char -> bool)
    requires NoneSatisfy(s, p)
    ensures Split(s, p) == [s]
    decreases |s|
  {
    if |s| > 0 {
      assert !p(s[0]);
      assert NoneSatisfy(s[1..], p) by {
        forall j | 0 <= j < |s| - 1 ensures !p(s[1..][j]) {
          assert s[1..][j] == s[j + 1];
        }
      }
      SplitOfPlain(s[1..], p);
      assert [s[0]] + s[1..] == s;
    }
  }

  /** Splitting a concatenation glues the last piece of the left part to the
      first piece of the right part. */
  lemma {:induction false} SplitAppend(a: string, b: string, p: char -> bool)
    ensures
      var A, B := Split(a, p), Split(b, p);
      Split(a + b, p) == A[..|A| - 1] + [A[|A| - 1] + B[0]] + B[1..]
    decreases |a|
  {
    var A, B := Split(a, p), Split(b, p);
    if |a| == 0 {
      assert a + b == b;
      assert A == [""];
      assert A[..|A| - 1] == [] && A[|A| - 1] + B[0] == B[0];
      assert [B[0]] + B[1..] == B;
    } else {
      assert (a + b)[0] == a[0] && (a + b)[1..] == a[1..] + b;
      SplitAppend(a[1..], b, p);
      var R := Split(a[1..], p);
      var S := Split(a[1..] + b, p);
      if p(a[0]) {
        SplitAppendSeparatorStep(R, B, S);
      } else {
        SplitAppendPlainStep(a[0], R, B, S);
      }
    }
  }

  /* The inductive step of SplitAppend when the first character separates. */
  lemma SplitAppendSeparatorStep(R: seq<string>, B: seq<string>, S: seq<string>)
    requires |R| >= 1 && |B| >= 1
    requires S == R[..|R| - 1] + [R[|R| - 1] + B[0]] + B[1..]
    ensures
      var A := [""] + R;
      [""] + S == A[..|A| - 1] + [A[|A| - 1] + B[0]] + B[1..]
  {
  }

  /* The inductive step of SplitAppend when the first character is kept. */
  lemma SplitAppendPlainStep(c: char, R: seq<string>, B: seq<string>, S: seq<string>)
    requires |R| >= 1 && |B| >= 1
    requires S == R[..|R| - 1] + [R[|R| - 1] + B[0]] + B[1..]
    ensures
      var A := [[c] + R[0]] + R[1..];
      [[c] + S[0]] + S[1..] == A[..|A| - 1] + [A[|A| - 1] + B[0]] + B[1..]
  {
    var A := [[c] + R[0]] + R[1..];
    if |R| == 1 {
      assert [c] + (R[0] + B[0]) == ([c] + R[0]) + B[0];
    } else {
      assert S[1..] == R[1..|R| - 1] + [R[|R| - 1] + B[0]] + B[1..];
      assert A[..|A| - 1] == [[c] + R[0]] + R[1..|R| - 1];
    }
  }

  /** A separator between two texts splits them apart: the pieces of the
      whole are the pieces of the left text followed by those of the right. */
  lemma SplitAtSeparator(a: string, c: char, b: string, p: char -> bool)
    requires p(c)
    ensures Split(a + [c] + b, p) == Split(a, p) + Split(b, p)
  {
    var A, B := Split(a, p), Split(b, p);
    assert ([c] + b)[1..] == b;
    assert Split([c] + b, p) == [""] + B;
    SplitAppend(a, [c] + b, p);
    assert a + [c] + b == a + ([c] + b);
    assert A[|A| - 1] + "" == A[|A| - 1];
    assert A[..|A| - 1] + [A[|A| - 1]] == A;
  }

  /** `split` undoes `join` when `sep` is a separator and no piece holds one. */
  lemma {:induction false} SplitOfJoin(ps: seq<string>, sep: char, p: char -> bool)
    requires |ps| >= 1
    requires p(sep)
    requires forall i :: 0 <= i < |ps| ==> NoneSatisfy(ps[i], p)
    ensures Split(Join(ps, sep), p) == ps
    decreases |ps|
  {
    SplitOfPlain(ps[0], p);
    if |ps| > 1 {
      var tail := Join(ps[1..], sep);
      SplitOfJoin(ps[1..], sep, p);
      assert ([sep] + tail)[1..] == tail;
      assert Split([sep] + tail, p) == [""] + ps[1..];
      SplitAppend(ps[0], [sep] + tail, p);
      assert ps[0] + [sep] + tail == ps[0] + ([sep] + tail);
      assert ps[0] + "" == ps[0];
      assert [ps[0]] + ps[1..] == ps;
    }
  }

  /** `join` undoes `split` when `sep` is the only character that separates. */
  lemma {:induction false} JoinOfSplit(s: string, sep: char, p: char -> bool)
    requires forall j :: 0 <= j < |s| && p(s[j]) ==> s[j] == sep
    ensures Join(Split(s, p), sep) == s
    decreases |s|
  {
    if |s| > 0 {
      var rest := Split(s[1..], p);
      JoinOfSplit(s[1..], sep, p);
      if p(s[0]) {
        assert ([""] + rest)[1..] == rest;
        assert s == [sep] + s[1..];
      } else {
        var r := [[s[0]] + rest[0]] + rest[1..];
        if |rest| > 1 {
          assert r[1..] == rest[1..];
          assert Join(rest, sep) == rest[0] + [sep] + Join(rest[1..], sep);
        }
        assert s == [s[0]] + s[1..];
      }
    }
  }
}

=== FILE: wire.dfy ===
/** The two ends of the wire together: what the reporter writes to its
    standard output and what the runner's decoder makes of it. */
module Wire {
  import opened Strings
  import opened Protocol
  import opened Decoder
  import opened Reporter

  /** `msg`: each message serialised on a line of its own. */
  function Written(stringify: Message -> string, ms: seq<Message>): (r: seq<string>)
    ensures |r| == |ms|
    ensures forall i :: 0 <= i < |ms| ==> r[i] == stringify(ms[i])
  {
    if |ms| == 0 then [] else [stringify(ms[0])] + Written(stringify, ms[1..])
  }

  /** The serialiser and the parser agree: a serialised message holds no
      newline and parses back to itself. The empty line is not JSON. */
  ghost predicate Faithful(stringify: Message -> string, parse: string -> Parsed)
  {
    && (forall m :: NoneSatisfy(stringify(m), IsNewline) && parse(stringify(m)) == ObjWithKind(m))
    && parse("") == ParseFail
  }

  /** Whatever the reporter writes over a run, delivered in one piece, comes
      out of the decoder as the same messages in the same order, followed by
      one empty stderr message for the final terminator, with nothing left
      carried. */
  lemma ReporterOutputDecodes(stringify: Message -> string, parse: string -> Parsed,
                              suite: seq<Test>, evs: seq<RunnerEvent>)
    requires Faithful(stringify, parse)
    ensures
      var ms := Emissions(suite, evs);
      Report(parse, "", Terminated(Written(stringify, ms), '\n')) == Decoded("", ms + [Stderr("")])
  {
    var ms := Emissions(suite, evs);
    var ls := Written(stringify, ms) + [""];
    assert ls[..|ls| - 1] == Written(stringify, ms);
    JoinAsTerminated(ls, '\n');
    assert Join(ls, '\n') == Terminated(Written(stringify, ms), '\n') + "";
    assert Terminated(Written(stringify, ms), '\n') + "" == Terminated(Written(stringify, ms), '\n');
    assert !(KindPrefix <= "");
    forall i | 0 <= i < |ls|
      ensures Standalone(parse, ls[i]) && NoneSatisfy(ls[i], IsNewline)
    {
      if i < |ms| {
        assert ls[i] == stringify(ms[i]);
      }
    }
    InterleavedChunk(parse, ls);
    var cs := ClassifyAll(parse, ls);
    assert cs == ms + [Stderr("")] by {
      forall i | 0 <= i < |ls| ensures cs[i] == (ms + [Stderr("")])[i] {
        if i < |ms| {
          assert ls[i] == stringify(ms[i]);
        }
      }
    }
  }
}

=== FILE: wrappers.dfy ===
/** Optional values and results with an error, used for the runner's
    undefined fields and rejected promises. */
module Wrappers {

  datatype Option<+T> = None | Some(value: T)
  {
    /** The carried value, or `default` when there is none (a JavaScript
        default for values that are never falsy when present). */
    function GetOr(default: T): T
    {
      match this
      case Some(v) => v
      case None => default
    }
  }

  datatype Result<+R, +E> = Ok(value: R) | Err(error: E)
}
